=== FILE: README.md ===
# ActiveCampaign webhook reconciliation, modelled in Dafny

This project models the core of the ActiveCampaign webhook receiver
(`activecampaign_webhooks_v2.py`). The receiver takes a contact event from
ActiveCampaign (AC) in one of three types: `contact_update`, `contact_add` or
`contact_delete`. It does the following:

- normalises the event type and routes the event to a handler;
- finds the local person the event is about;
- links that person to the AC contact id where the code does so;
- diffs the profile the event carries against the stored row;
- applies the due changes, records one `ac_profile_updates` row per changed
  field, and logs the event in `ac_webhook_log`.

The database is a pure value (`Store.Store`). It holds the `unified_persons`
table as a map from `person_id` to a row, and the two append-only tables as
sequences. Every handler is a function from the old store to the new store and
its JSON response. `datetime.now()` is a parameter `now`. The free-tier
log-only mode is the `dbAvailable` flag of `Handlers.Dispatch`.

Modules, in dependency order:

- `wrappers.dfy`: `Option` and `Result`.
- `text.dfy`: Python's `lower()`, `strip()`, `in`, `startswith` and
  `replace(pat, '')`, and SQLite's `LOWER()` and `TRIM()`.
- `payload.dfy`: the parsed payload, contact-id and email extraction, and
  form-encoded parsing with `contact[...]` key stripping.
- `profile.dfy`: `extract_profile_fields` and the keyword classification of
  custom fields.
- `store.dfy`: the person row, the two log tables, the two lookups, AC-id
  linking, and the unique index on `ac_contact_id`.
- `reconcile.dfy`: `update_person_profile`, which covers the field diff, its
  application and its change records.
- `handlers.dfy`: person resolution, the three handlers, the log-only
  responses and the dispatch.
- `scenarios.dfy`: lemmas about concrete events against small stores.

The two lookups end in `LIMIT 1` without `ORDER BY`. They are modelled as
returning the least matching `person_id`, the order in which SQLite scans a
rowid table. For the AC-id lookup the choice does not matter: under the unique
index at most one row matches (`Store.FindByAcIdUnique`).

The model follows the code, with one exception: the update handler's linking,
which is logged under "## Findings" below. The add handler links the person it
found, by AC id or by email, only when that person's `ac_contact_id` is NULL
or empty; its comment at activecampaign_webhooks_v2.py:396 says to link the AC
id "if not set", and its guard is at line 397. The update handler never links a person it found by AC id,
and links a person it found by email unconditionally (lines 328-340). Both
versions of the update handler are modelled:

- `Handlers.ResolveAsWritten` and `Handlers.HandleUpdateAsWritten` are the
  update handler as written.
- `Handlers.ResolveForUpdate` and `Handlers.HandleUpdate` are the same handler
  with the email-fallback link guarded, as the add handler guards its link.
  A person found by AC id is taken as it is. The rest of the model uses this
  version.
- `Handlers.UpdateAsWrittenDiffers` states where the two agree. They send the
  same response. They leave the same store unless the email fallback finds a
  person already linked to another AC id.
- `Handlers.ResolveForAdd` is the add handler's resolution.

## Model

| member | source | states |
|---|---|---|
| Text.TrimLeftSpec | activecampaign_webhooks_v2.py:117 | the left half of `strip()`: the result is a suffix of the input, everything cut off is whitespace, and the result does not start with whitespace |
| Text.TrimRightSpec | activecampaign_webhooks_v2.py:117 | the right half of `strip()`: the result is a prefix of the input, everything cut off is whitespace, and the result does not end with whitespace |
| Text.StripSlice | activecampaign_webhooks_v2.py:235 | `strip()` returns a contiguous slice of its input |
| Text.StripCutsDropped | activecampaign_webhooks_v2.py:235 | every character `strip()` removes, on either side of the kept slice, is whitespace |
| Text.StripEnds | activecampaign_webhooks_v2.py:235 | a stripped string is empty or starts and ends with a non-whitespace character |
| Text.LowerSpec | activecampaign_webhooks_v2.py:117 | `lower()` keeps the length and lower-cases each character in place |
| Text.LowerHasNoUpper | activecampaign_webhooks_v2.py:117 | a lower-cased string holds no upper-case ASCII letter |
| Text.LowerOfNoUpper | activecampaign_webhooks_v2.py:117 | `lower()` leaves a string without upper-case letters unchanged |
| Text.LowerIdempotent | activecampaign_webhooks_v2.py:117 | lower-casing twice equals lower-casing once |
| Text.StripIdempotent | activecampaign_webhooks_v2.py:117 | stripping twice equals stripping once |
| Text.StripKeepsNoUpper | activecampaign_webhooks_v2.py:117 | stripping a string without upper-case letters gives one without upper-case letters |
| Text.LowerKeepsWhitespace | activecampaign_webhooks_v2.py:159-161 | lower-casing never turns a character into whitespace or out of it, for Python's set and for SQLite's |
| Text.StripLowerCommute | activecampaign_webhooks_v2.py:159-161 | lower-then-strip equals strip-then-lower, so on ASCII text `LOWER(TRIM(x))` and `x.lower().strip()` differ only in which whitespace they strip |
| Text.PyNormIdempotent | activecampaign_webhooks_v2.py:161 | `email.lower().strip()` is idempotent, so the lookup re-normalising the already normalised event email has no further effect |
| Text.PyNormIsLowerCase | activecampaign_webhooks_v2.py:117 | a normalised email has no upper-case letter and no surrounding whitespace |
| Text.StripOfBare | activecampaign_webhooks_v2.py:235 | text that neither starts nor ends with whitespace strips to itself |
| Text.StripTrailing | activecampaign_webhooks_v2.py:235 | stripping removes one whitespace character appended to such text |
| Text.TrailingTab | activecampaign_webhooks_v2.py:159-161 | Python's `strip()` removes an appended tab and SQLite's one-argument `TRIM()` keeps it |
| Text.NormalFormSqlNorm | activecampaign_webhooks_v2.py:159-161 | a value already in the receiver's normal form is unchanged by `LOWER(TRIM(x))` |
| Text.SqlNormAgreesWithPyNorm | activecampaign_webhooks_v2.py:159-161 | on ASCII text, when SQLite's and Python's trimming agree on a stored value, the SQL side and the Python side normalise it to the same text |
| Text.RemoveAllPrefix | activecampaign_webhooks_v2.py:540 | on a key that starts with `contact[`, `replace('contact[', '')` removes that leading occurrence and then works on the rest of the key |
| Text.RemoveCharKeepsOthers | activecampaign_webhooks_v2.py:540 | `replace(']', '')` leaves no `]`, and changes nothing in a string without one |
| Text.RemoveAllAbsent | activecampaign_webhooks_v2.py:540 | `replace` leaves a string that does not contain the pattern unchanged |
| Text.RemoveTrailingChar | activecampaign_webhooks_v2.py:540 | removing `]` from `name + "]"` gives `name` when `name` has no `]` |
| Payload.ContactId | activecampaign_webhooks_v2.py:109-112 | the contact id is `contact.id` when non-empty and the top-level `contact_id` otherwise; it is empty exactly when both are |
| Payload.EventEmailIsNormal | activecampaign_webhooks_v2.py:114-117 | the extracted email is in normal form: normalising again changes nothing, and it has no upper-case letter and no surrounding whitespace |
| Payload.StripContactKeyHasNoBracket | activecampaign_webhooks_v2.py:540 | the attribute name a form key yields never holds a `]` |
| Payload.StripContactKeyOfBracketed | activecampaign_webhooks_v2.py:538-541 | `contact[name]` is a contact key and strips back to `name` for any name without brackets |
| Payload.FormGet | activecampaign_webhooks_v2.py:533 | `form.get(key, default)` returns the value of the first item with that key, or the default when there is none |
| Payload.KindAfterWithoutType | activecampaign_webhooks_v2.py:532-543 | until the loop meets a `type` item, the payload's type is the form's `type` value or `contact_update` |
| Payload.KindAfterIsLastType | activecampaign_webhooks_v2.py:542-543 | after the loop, the payload's type is the `type` item's value, the default when there is none |
| Payload.AttrsAfterDomain | activecampaign_webhooks_v2.py:538-541 | the contact attributes are exactly the names some `contact[...]` key yields |
| Payload.AttrsAfterIsLastKey | activecampaign_webhooks_v2.py:538-541 | each contact attribute holds the value of the last key naming it |
| Payload.ParseForm | activecampaign_webhooks_v2.py:530-543 | a form-encoded body, each key once with its first value, becomes a payload whose type is the `type` item's value and `contact_update` without one, whose attributes are exactly the stripped `contact[...]` keys, each with the value of the last key that strips to it, and which has no custom fields and no top-level id |
| Profile.Classify | activecampaign_webhooks_v2.py:190-200 | a custom field's name selects the field of the first keyword its lower-cased name contains, in the order company, industry, job, title, location, summary, and no field when it contains none |
| Profile.ApplyFieldValuesUntouched | activecampaign_webhooks_v2.py:186-200 | a field no entry classifies as keeps the value it had before the loop |
| Profile.ApplyFieldValuesLastWins | activecampaign_webhooks_v2.py:186-200 | the last entry that classifies as a field supplies that field's value |
| Profile.CustomFields | activecampaign_webhooks_v2.py:185-200 | the custom fields present are exactly those some entry classifies as, each with the value of the last such entry |
| Profile.ExtractProfile | activecampaign_webhooks_v2.py:171-202 | each name part is the camelCase value when that is non-empty and the snake_case one otherwise, so it is empty only when both are; the email is the one the lookups use, already in normal form; the phone is as sent; the custom fields are exactly those some entry classifies as, each holding the value of the last such entry |
| Store.WithField | activecampaign_webhooks_v2.py:289-293 | setting one column of a row changes that column only |
| Store.FindByAcId | activecampaign_webhooks_v2.py:119-143 | `WHERE ac_contact_id = ?`: finds nobody exactly when no row holds the id, and otherwise the least id of a row that holds it |
| Store.FindByEmail | activecampaign_webhooks_v2.py:145-169 | `WHERE LOWER(TRIM(primary_email)) = ?`: finds nobody exactly when no row matches, and otherwise the least matching id; a NULL email never matches |
| Store.FindByEmailLeast | activecampaign_webhooks_v2.py:156-161 | the email lookup returns the least id whose row matches |
| Store.FindByEmailStable | activecampaign_webhooks_v2.py:156-161 | the email lookup keeps finding the same person after a change to that person that keeps the match and leaves other rows alone |
| Store.FindByAcIdUnique | init_webhook_database.py:60-64 | under the unique index, the AC-id lookup returns whoever holds the id |
| Store.EventEmailMatchesItself | activecampaign_webhooks_v2.py:159-161 | an event email written to the row as `primary_email` is found again by the same event |
| Store.EmailMatchesWhenSpaceTrimmed | activecampaign_webhooks_v2.py:159-161 | on ASCII text, a stored email with only spaces around it is found exactly when its Python normalisation equals the event's |
| Store.EmailLookupIgnoresTabs | activecampaign_webhooks_v2.py:159-161 | a stored email ending in a tab is not found by an event whose email normalises to the same text |
| Store.Link | activecampaign_webhooks_v2.py:335-339 | linking sets `ac_contact_id` and `ac_profile_source = 'activecampaign'` on one person and changes nothing else |
| Store.LinkPreservesUnique | init_webhook_database.py:60-64 | linking a person to an AC id no other person holds keeps the index unique |
| Store.SameLinksKeepUnique | init_webhook_database.py:60-64 | uniqueness depends only on who holds which AC id |
| Reconcile.CandidateName | activecampaign_webhooks_v2.py:234-235 | the proposed name is empty when both name parts are, and never starts or ends with whitespace |
| Reconcile.NameRule | activecampaign_webhooks_v2.py:234-239 | with both name parts empty no name change is due; otherwise one is due exactly when the stripped `first last` is non-empty and differs from the stored name |
| Reconcile.Diff | activecampaign_webhooks_v2.py:233-281 | the diff holds exactly the due changes, one per due field, in the order the code compares fields, each with the stored value as old and the incoming value as new; it is empty exactly when nothing is due |
| Reconcile.DiffFromDue | activecampaign_webhooks_v2.py:242-281 | every change the comparison from a given field on collects is due |
| Reconcile.DiffFromOrdered | activecampaign_webhooks_v2.py:242-281 | the changes collected from a given field on follow the comparison order |
| Reconcile.DiffFromCovers | activecampaign_webhooks_v2.py:242-281 | every due field from a given field on has a change |
| Reconcile.DueChangesAreDue | activecampaign_webhooks_v2.py:242-281 | a list of due changes mentions only due fields |
| Reconcile.ApplyChanges | activecampaign_webhooks_v2.py:289-293 | the `UPDATE` writes each change's new value into its column and leaves the other columns alone |
| Reconcile.ApplyDiffEffect | activecampaign_webhooks_v2.py:283-293 | after the diff is applied, every due field holds its incoming value and every other field its stored one |
| Reconcile.DiffRecords | activecampaign_webhooks_v2.py:295-302 | the records of a diff are tagged, due, in comparison order, and cover every due field |
| Reconcile.UpdatedPerson | activecampaign_webhooks_v2.py:283-293 | the updated row takes the incoming values of due fields, keeps its AC link, and has `ac_last_synced` set to now |
| Reconcile.UpdatePersonProfile | activecampaign_webhooks_v2.py:204-314 | succeeds exactly when the person exists; an unknown person changes nothing; only that person's row may change, the webhook log is untouched, and change records are only appended |
| Reconcile.UpdateWithoutChanges | activecampaign_webhooks_v2.py:308-310 | with nothing due, the update succeeds and changes nothing, not even `ac_last_synced` |
| Reconcile.UpdateFieldEffect | activecampaign_webhooks_v2.py:283-293 | the updated row: due fields take their incoming values, others keep theirs, the AC link columns are kept, and `ac_last_synced` becomes now exactly when some field changed |
| Reconcile.UpdateKeepsLinks | activecampaign_webhooks_v2.py:289-293 | the update never changes an AC id, so it keeps the index unique |
| Reconcile.UpdateRecords | activecampaign_webhooks_v2.py:295-302 | the records an update appends are exactly the change records of its diff |
| Reconcile.ApplyThenDiffIsEmpty | activecampaign_webhooks_v2.py:242-281 | after a diff is applied, the same profile has nothing left to change |
| Reconcile.NothingDueAfterUpdate | activecampaign_webhooks_v2.py:283-293 | after an update, the same profile finds no due field in the row |
| Reconcile.ReapplyIsNoOp | activecampaign_webhooks_v2.py:204-314 | re-applying a profile right after applying it changes nothing and reports success for a known person |
| Reconcile.EmptyNeverOverwrites | activecampaign_webhooks_v2.py:242-281 | a field the profile leaves empty keeps its stored value |
| Handlers.NormalizeType | activecampaign_webhooks_v2.py:559-560 | a non-empty type without the `contact_` prefix becomes `contact_` followed by it, any other type is kept unchanged, so the result is empty or prefixed and always ends with the original type |
| Handlers.NormalizeTypeIdempotent | activecampaign_webhooks_v2.py:559-560 | normalising a normalised type changes nothing |
| Handlers.NormalizeTypeRoutes | activecampaign_webhooks_v2.py:555-570 | each handler is reached by its short and its long type spelling and by no other |
| Handlers.AppendLog | activecampaign_webhooks_v2.py:91-102 | logging appends exactly one row and touches no other table |
| Handlers.ResolveForAdd | activecampaign_webhooks_v2.py:389-405 | the holder of the AC id if there is one, else the first email match; the table is the link of that person (AC id and `activecampaign` source set, every other column kept) when its AC id is unset, and unchanged otherwise |
| Handlers.ResolveForUpdate | activecampaign_webhooks_v2.py:324-340 | the holder of the AC id is taken with the table unchanged; otherwise the first email match, and the table is that person's link (AC id and `activecampaign` source set, every other column kept) when its AC id is unset, and unchanged otherwise |
| Handlers.ResolveKeepsUnique | init_webhook_database.py:60-64 | both guarded resolutions keep at most one person per non-null AC id |
| Handlers.ResolveAsWritten | activecampaign_webhooks_v2.py:324-340 | the update handler's resolution as written: the holder of the AC id is taken with the table unchanged; otherwise the first email match, and the table is that person's link to the AC id (`activecampaign` source set, every other column kept) whatever id it already holds |
| Handlers.ResolveAsWrittenOverridesLink | activecampaign_webhooks_v2.py:328-340 | both update resolutions find the same person; they give the same table exactly unless the email match is already linked, in which case the code as written re-links it and the guarded resolution changes nothing |
| Handlers.HandleUpdate | activecampaign_webhooks_v2.py:316-379 | with the email-fallback link guarded: the response names the resolved person, succeeds exactly when there is one, and says "Profile updated" or "Contact not found in analytics database"; only that person's row changes; one log row is appended, processed exactly when a person was found, and otherwise carrying "Contact not in analytics database" |
| Handlers.HandleUpdateAsWritten | activecampaign_webhooks_v2.py:316-379 | the update handler as written: the response names the person the as-written resolution finds, succeeds exactly when there is one, and says "Profile updated" or "Contact not found in analytics database"; a person found by email ends up linked to the event's AC id; only that person's row changes; one log row is appended, processed exactly when a person was found, and otherwise carrying "Contact not in analytics database" |
| Handlers.UpdateAsWrittenKeepsUnique | init_webhook_database.py:60-64 | the update handler as written also keeps at most one person per non-null AC id, since it re-links an email match only when nobody holds the event's id |
| Handlers.UpdateAsWrittenDiffers | activecampaign_webhooks_v2.py:328-340 | the update handler as written and the guarded one send the same response and leave the same store, except when the email fallback finds a person linked to another AC id: then the code as written moves that person to the event's id and the guarded one keeps its id |
| Handlers.HandleAdd | activecampaign_webhooks_v2.py:381-435 | the response names the resolved person, succeeds exactly when there is one, and says "Linked to existing person" or "New contact - will sync via next export"; the persons table is exactly the resolution's, so a found person is linked only when unset and otherwise left untouched; no change record changes; one log row is appended, processed or pending export |
| Handlers.HandleDelete | activecampaign_webhooks_v2.py:437-451 | a delete changes no person and no change record, appends one processed log row, and always succeeds |
| Handlers.Dispatch | activecampaign_webhooks_v2.py:555-575 | an unknown normalised type fails with "Unknown webhook type"; without a database a known event leaves the store alone and succeeds with no person, the event's contact id and the log-only message, or the delete message for a delete, as the handlers' log-only branches answer; with one, it runs the matching handler, which appends one log row of the normalised type |
| Handlers.UpdateEffect | activecampaign_webhooks_v2.py:324-359 | an update about a person links it by the resolution rule and marks it as an `activecampaign` profile only when the email fallback links it, sets every tracked field by the profile rule, and appends exactly the change records of the diff |
| Handlers.UpdateKeepsUnique | init_webhook_database.py:60-64 | an update keeps the AC-id index unique |
| Handlers.AddKeepsUnique | init_webhook_database.py:60-64 | an add keeps the AC-id index unique |
| Handlers.AcIdTakesPrecedence | activecampaign_webhooks_v2.py:324-329 | when a person holds the event's AC id, update and add both act on that person, whoever the email matches |
| Handlers.UpdateOfLinkedPerson | activecampaign_webhooks_v2.py:324-359 | an update for the holder of the event's AC id is the profile update of that person followed by one processed log row and the "Profile updated" response |
| Handlers.ResolveLinkedAgain | activecampaign_webhooks_v2.py:324-325 | a person holding the AC id resolves to itself and nobody is re-linked |
| Handlers.ResolveByEmailAgain | activecampaign_webhooks_v2.py:327-329 | a linked person found by email resolves to itself again after a change that keeps its link, its match and every other row |
| Handlers.ResolvesSameAfter | activecampaign_webhooks_v2.py:324-340 | the person an event resolved to resolves to itself again, linking nobody, once it holds the resolved link and its email is unchanged or the event's |
| Handlers.RedeliveryResolvesSame | activecampaign_webhooks_v2.py:324-340 | after an update about a person, the same event resolves to that person again and links nobody |
| Handlers.RedeliveryIsNoOp | activecampaign_webhooks_v2.py:316-359 | re-delivering an update event changes no person and writes no change record |
| Scenarios.RenameProfile | activecampaign_webhooks_v2.py:171-183 | an event with an id, a normalised email and a first name yields that first name, that email and nothing else |
| Scenarios.RenameDue | activecampaign_webhooks_v2.py:234-239 | against John Doe that profile is due for the name only |
| Scenarios.RenameDiff | activecampaign_webhooks_v2.py:233-281 | against John Doe the diff is the single change of the name from "John Doe" to the first name |
| Scenarios.RenameApplied | activecampaign_webhooks_v2.py:283-302 | applying it renames the person and writes one change record |
| Scenarios.RenameResolved | activecampaign_webhooks_v2.py:324-359 | the rename event reaches John Doe through his AC id |
| Scenarios.RenameOnly | activecampaign_webhooks_v2.py:316-359 | the rename event renames John Doe, writes one record and one processed log row, and reports success |
| Scenarios.ExampleEmailIsNormal | activecampaign_webhooks_v2.py:117 | `a@x.com` is already normalised |
| Scenarios.UpdateRenamesJohnToJane | activecampaign_webhooks_v2.py:555-575 | dispatching the update for contact 42 with first name Jane renames John Doe to Jane with one change record from "John Doe" to "Jane" |
| Scenarios.AddOfUnknownContactWaits | activecampaign_webhooks_v2.py:425-435 | an add for an unknown contact fails with the pending-export message and logs one unprocessed row |
| Scenarios.DeleteOnlyLogs | activecampaign_webhooks_v2.py:437-451 | a delete in either spelling, against any store, only appends one processed log row and succeeds |
| Scenarios.AsWrittenRelinks | activecampaign_webhooks_v2.py:328-340 | for any person already linked to another id, the as-written update resolution re-links it and the guarded one keeps the old link |
| Scenarios.RelinkEventFindsLinkedPerson | activecampaign_webhooks_v2.py:324-329 | an update for AC id 8 with email a@x.com finds nobody by id and falls back to person 1, who holds AC id 7 |
| Scenarios.AsWrittenRelinksPerson | activecampaign_webhooks_v2.py:328-340 | person 1, linked to 7 with email a@x.com, is re-linked to 8 by the update handler as written and stays linked to 7 under the guarded one |

## Left out

- HTTP, Flask, the signature check (HMAC), the content-type negotiation and the JSON
  parsing of the request are not modelled. Only the form-encoded branch's
  `contact[...]` parsing is (`Payload.ParseForm`).
- Payload.ParseForm: takes the list `request.form.items()` yields, in which each
  key appears once with its first value. Werkzeug's decoding of the body into
  that list is not modelled. A non-empty `contact[fieldValues]` key makes the
  program's profile extraction raise, because it iterates over the string's
  characters and calls `.get` on each. The request then fails with a 500 and no
  log row, after any email-fallback link is already committed. The model keeps
  that key as a plain attribute and extracts no custom fields.
- The `/health`, `/` and `/api/profile-updates` endpoints and the console logging
  are not modelled.
- SQLite exceptions are not modelled. The `except` branches that return `False` or
  `None` never fire in the model, so `update_person_profile` fails only for an
  unknown person, and `log_webhook` always writes its row.
- Python's `lower()` is modelled on ASCII letters only. Unicode case mapping is not
  modelled. SQLite's `LOWER()` is ASCII-only, as modelled. So the model does not
  show that the email lookup also misses a stored email holding a non-ASCII
  capital, such as `Émile@x.com`, which Python lowers and SQLite does not.
- Text.StripLowerCommute, Text.SqlNormAgreesWithPyNorm and
  Store.EmailMatchesWhenSpaceTrimmed: hold on ASCII text only, for the reason
  above.
- Payload values are text. JSON `null`, numbers and nested objects in place of
  strings are not modelled, and a missing key reads as the empty string.
- Log rows keep the parsed payload instead of its `json.dumps` text.
- Change-record timestamps (`updated_at`) and the log's `log_id` are not modelled.
  The two `datetime.now()` reads of one event are a single `now`.
- Log-only mode is the `dbAvailable` flag of `Handlers.Dispatch`. Its console output
  is not modelled.
- `init_webhook_database.py` is not part of this model beyond its unique index on
  `ac_contact_id`, which is `Store.UniqueAcIds`. Every uniqueness lemma assumes the
  index holds before the event. The model states that the handlers keep it, instead of
  modelling the `IntegrityError` a violating write would raise.
- Handlers.HandleUpdate: guards the email-fallback link, as logged under
  "## Findings"; `Handlers.HandleUpdateAsWritten` is the handler as written, and
  `Handlers.UpdateAsWrittenDiffers` states the one case in which the two differ.
  `Handlers.Dispatch`, `Handlers.UpdateEffect` and the redelivery lemmas are
  about the guarded handler.
- Handlers.Dispatch: states the handler's result and one log row, not the HTTP status
  codes 200 and 400.

## Findings

| source | as written | input that shows it | evidently intended | confidence | as-written member | corrected member |
|---|---|---|---|---|---|---|
| activecampaign_webhooks_v2.py:328-340 | when no person holds the event's AC id, the update handler links the email match to that id even if the match is already linked to another AC id | person 1 linked to AC id "7" with email a@x.com; a `contact_update` for AC id "8" with email a@x.com re-links person 1 from 7 to 8 | link only a person whose AC id is unset, as the add handler does at line 397, so that an email fallback never overrides an existing link | not executed | Handlers.HandleUpdateAsWritten | Handlers.HandleUpdate |

=== FILE: handlers.dfy ===
/** The webhook handlers and the dispatch that routes an event to them. Each
    handler takes the store, the parsed payload and the current time, and
    returns the new store together with the JSON response it sends. */
module Handlers {
  import opened Wrappers
  import opened Text
  import opened Payload
  import opened Profile
  import opened Store
  import opened Reconcile

  /** The response body: `success`, `person_id` when a person was involved,
      `ac_contact_id` and `message`. */
  datatype Response = Response(success: bool, personId: Option<PersonId>, acContactId: string, message: string)

  const UpdateType: string := "contact_update"
  const AddType: string := "contact_add"
  const DeleteType: string := "contact_delete"

  const NotInDatabaseError: string := "Contact not in analytics database"
  const PendingExportError: string := "New contact - pending export sync"
  const UnknownTypeError: string := "Unknown webhook type"

  const UpdatedMessage: string := "Profile updated"
  const UpdateFailedMessage: string := "Update failed"
  const NotFoundMessage: string := "Contact not found in analytics database"
  const LinkedMessage: string := "Linked to existing person"
  const NewContactMessage: string := "New contact - will sync via next export"
  const DeletedMessage: string := "Deletion logged (no action taken per requirements)"
  const LogOnlyMessage: string := "Webhook logged (database unavailable on free tier)"

  // ---------------------------------------------------------------------------
  // Event types

  const TypePrefix: string := "contact_"

  /** The event type after normalisation: a non-empty type that does not start
      with `contact_` gets that prefix. */
  function NormalizeType(t: string): (r: string)
    ensures StartsWith(t, TypePrefix) ==> r == t
    ensures t != "" && !StartsWith(t, TypePrefix) ==> r == TypePrefix + t
    ensures t == "" ==> r == ""
    ensures r == "" || StartsWith(r, TypePrefix)
    ensures |r| >= |t| && r[|r| - |t|..] == t
  {
    if t != "" && !StartsWith(t, TypePrefix) then TypePrefix + t else t
  }

  lemma NormalizeTypeIdempotent(t: string)
    ensures NormalizeType(NormalizeType(t)) == NormalizeType(t)
  {
  }

  /** A step of `NormalizeTypeRoutes`: prefixing is injective, so `prefix + t`
      names a handler's type exactly when `t` is that type's short form. */
  lemma PrefixedType(t: string, short: string)
    ensures TypePrefix + t == TypePrefix + short <==> t == short
  {
    if TypePrefix + t == TypePrefix + short {
      assert t == (TypePrefix + t)[|TypePrefix|..];
      assert short == (TypePrefix + short)[|TypePrefix|..];
    }
  }

  /** Both spellings of each event type reach the same handler, and no other
      spelling does. */
  lemma NormalizeTypeRoutes(t: string)
    ensures NormalizeType(t) == UpdateType <==> t == "update" || t == UpdateType
    ensures NormalizeType(t) == AddType <==> t == "add" || t == AddType
    ensures NormalizeType(t) == DeleteType <==> t == "delete" || t == DeleteType
  {
    assert UpdateType == TypePrefix + "update";
    assert AddType == TypePrefix + "add";
    assert DeleteType == TypePrefix + "delete";
    assert StartsWith(UpdateType, TypePrefix) && StartsWith(AddType, TypePrefix) && StartsWith(DeleteType, TypePrefix);
    if t != "" && !StartsWith(t, TypePrefix) {
      PrefixedType(t, "update");
      PrefixedType(t, "add");
      PrefixedType(t, "delete");
    }
  }

  // ---------------------------------------------------------------------------
  // The webhook log

  /** The `ac_webhook_log` row for an event: its type, the extracted contact id
      and email, the time it was received and the payload itself. */
  function LogEvent(kind: string, p: Payload, now: string, processed: bool, pid: Option<PersonId>, error: Option<string>): LogEntry
  {
    LogEntry(kind, ContactId(p), EventEmail(p), now, p, processed, pid, error)
  }

  /** Appends one row to the webhook log; persons and change records stay as they are. */
  function AppendLog(s: Store, e: LogEntry): (r: Store)
    ensures r.persons == s.persons && r.updates == s.updates
    ensures |r.log| == |s.log| + 1 && r.log[..|s.log|] == s.log && r.log[|s.log|] == e
  {
    var r := s.(log := s.log + [e]);
    assert r.log[..|s.log|] == s.log;
    r
  }

  // ---------------------------------------------------------------------------
  // Resolution

  /** A stored AC id treated as unset: NULL or empty, the values Python reads as false. */
  predicate IsUnset(id: Option<string>) {
    id.None? || id == Some("")
  }

  /** The AC id a resolved person ends up with: the event's id when its own is unset. */
  function ResolvedLink(stored: Option<string>, acId: string): Option<string> {
    if IsUnset(stored) then Some(acId) else stored
  }

  /** The AC profile source a resolved person ends up with: `activecampaign` when it
      is linked. */
  function ResolvedSource(stored: Option<string>, source: Option<string>): Option<string> {
    if IsUnset(stored) then Some(LinkedSource) else source
  }

  /** The add handler's resolution: the person an event is about and the persons
      table after any linking. The person is the holder of the AC id if there is
      one, otherwise the first email match, and it is linked to the AC id only
      when its own is unset, however it was found. */
  function ResolveForAdd(persons: map<PersonId, Person>, acId: string, email: string): (r: (Option<PersonId>, map<PersonId, Person>))
    ensures FindByAcId(persons, acId).Some? ==> r.0 == FindByAcId(persons, acId)
    ensures FindByAcId(persons, acId).None? ==> r.0 == FindByEmail(persons, email)
    ensures r.0.None? ==> r.1 == persons
    ensures r.0.Some? ==> r.0.value in r.1 && r.1[r.0.value].acContactId == ResolvedLink(persons[r.0.value].acContactId, acId)
    ensures r.0.Some? ==>
      r.1[r.0.value].acProfileSource == ResolvedSource(persons[r.0.value].acContactId, persons[r.0.value].acProfileSource)
    ensures r.0.Some? ==> r.1 == (if IsUnset(persons[r.0.value].acContactId) then Link(persons, r.0.value, acId) else persons)
    ensures r.1.Keys == persons.Keys
    ensures forall k :: k in persons && Some(k) != r.0 ==> r.1[k] == persons[k]
    ensures r.0.Some? ==> forall f :: Stored(r.1[r.0.value], f) == Stored(persons[r.0.value], f)
  {
    var found := match FindByAcId(persons, acId)
      case Some(k) => Some(k)
      case None => FindByEmail(persons, email);
    match found
    case None => (None, persons)
    case Some(k) =>
      if IsUnset(persons[k].acContactId) then (Some(k), Link(persons, k, acId))
      else (Some(k), persons)
  }

  /** The update handler's resolution with its linking guarded as the add
      handler's is: the holder of the AC id is taken as it is, and an email match
      is linked to the AC id only when its own is unset. */
  function ResolveForUpdate(persons: map<PersonId, Person>, acId: string, email: string): (r: (Option<PersonId>, map<PersonId, Person>))
    ensures FindByAcId(persons, acId).Some? ==> r == (FindByAcId(persons, acId), persons)
    ensures FindByAcId(persons, acId).None? ==> r.0 == FindByEmail(persons, email)
    ensures r.0.None? ==> r.1 == persons
    ensures r.0.Some? ==> r.0.value in r.1 && r.1[r.0.value].acContactId == ResolvedLink(persons[r.0.value].acContactId, acId)
    ensures FindByAcId(persons, acId).None? && r.0.Some? ==>
      r.1[r.0.value].acProfileSource == ResolvedSource(persons[r.0.value].acContactId, persons[r.0.value].acProfileSource)
    ensures FindByAcId(persons, acId).None? && r.0.Some? ==>
      r.1 == (if IsUnset(persons[r.0.value].acContactId) then Link(persons, r.0.value, acId) else persons)
    ensures r.1.Keys == persons.Keys
    ensures forall k :: k in persons && Some(k) != r.0 ==> r.1[k] == persons[k]
    ensures r.0.Some? ==> forall f :: Stored(r.1[r.0.value], f) == Stored(persons[r.0.value], f)
  {
    match FindByAcId(persons, acId)
    case Some(k) => (Some(k), persons)
    case None =>
      match FindByEmail(persons, email)
      case Some(k) =>
        if IsUnset(persons[k].acContactId) then (Some(k), Link(persons, k, acId))
        else (Some(k), persons)
      case None => (None, persons)
  }

  /** The update handler's resolution as written: the holder of the AC id is taken
      as it is, and an email match is linked to the AC id whatever AC id it
      already holds. */
  function ResolveAsWritten(persons: map<PersonId, Person>, acId: string, email: string): (r: (Option<PersonId>, map<PersonId, Person>))
    ensures FindByAcId(persons, acId).Some? ==> r == (FindByAcId(persons, acId), persons)
    ensures FindByAcId(persons, acId).None? ==> r.0 == FindByEmail(persons, email)
    ensures r.0.None? ==> r.1 == persons
    ensures FindByAcId(persons, acId).None? && r.0.Some? ==> r.0.value in r.1 && r.1[r.0.value].acContactId == Some(acId)
    ensures FindByAcId(persons, acId).None? && r.0.Some? ==> r.0.value in persons && r.1 == Link(persons, r.0.value, acId)
    ensures r.1.Keys == persons.Keys
    ensures forall k :: k in persons && Some(k) != r.0 ==> r.1[k] == persons[k]
  {
    match FindByAcId(persons, acId)
    case Some(k) => (Some(k), persons)
    case None =>
      match FindByEmail(persons, email)
      case Some(k) => (Some(k), Link(persons, k, acId))
      case None => (None, persons)
  }

  /** The email fallback finds a person already linked to an AC id: the one case
      in which the two update resolutions differ. */
  predicate RelinksByEmail(persons: map<PersonId, Person>, acId: string, email: string) {
    var k := FindByEmail(persons, email);
    FindByAcId(persons, acId).None? && k.Some? && !IsUnset(persons[k.value].acContactId)
  }

  /** The two update resolutions find the same person, and they agree on the
      persons table exactly outside `RelinksByEmail`; there the code as written
      re-links the email match to the event's AC id and the guarded resolution
      leaves the table alone. */
  lemma {:induction false} ResolveAsWrittenOverridesLink(persons: map<PersonId, Person>, acId: string, email: string)
    ensures ResolveAsWritten(persons, acId, email).0 == ResolveForUpdate(persons, acId, email).0
    ensures !RelinksByEmail(persons, acId, email) ==> ResolveAsWritten(persons, acId, email) == ResolveForUpdate(persons, acId, email)
    ensures RelinksByEmail(persons, acId, email) ==>
      var k := FindByEmail(persons, email).value;
      && ResolveAsWritten(persons, acId, email).1[k].acContactId == Some(acId)
      && ResolveForUpdate(persons, acId, email).1 == persons
  {
  }

  /** Both guarded resolutions keep the AC id index unique: a person is linked
      only when its own AC id is unset, and then either nobody holds the event's
      id or the person found holds it already. */
  lemma ResolveKeepsUnique(persons: map<PersonId, Person>, acId: string, email: string)
    requires UniqueAcIds(persons)
    ensures UniqueAcIds(ResolveForAdd(persons, acId, email).1)
    ensures UniqueAcIds(ResolveForUpdate(persons, acId, email).1)
  {
    var r := ResolveForAdd(persons, acId, email);
    if r.0.Some? && IsUnset(persons[r.0.value].acContactId) {
      LinkPreservesUnique(persons, r.0.value, acId);
    }
  }

  // ---------------------------------------------------------------------------
  // Handlers

  /** The rest of the update handler once the person is resolved: applies the
      profile the payload carries to the person found and logs the event as
      processed, or logs it as unprocessed when nobody was found. */
  function UpdateResolved(s: Store, p: Payload, now: string, found: Option<PersonId>, persons: map<PersonId, Person>): (Store, Response)
  {
    var acId := ContactId(p);
    match found
    case Some(k) =>
      var (s', ok) := UpdatePersonProfile(s.(persons := persons), k, acId, ExtractProfile(p), now);
      (AppendLog(s', LogEvent(UpdateType, p, now, true, Some(k), None)),
       Response(ok, Some(k), acId, if ok then UpdatedMessage else UpdateFailedMessage))
    case None =>
      (AppendLog(s, LogEvent(UpdateType, p, now, false, None, Some(NotInDatabaseError))),
       Response(false, None, acId, NotFoundMessage))
  }

  /** `handle_contact_update`, with its email-fallback linking guarded: resolves
      the person, applies the profile the payload carries and logs the event as
      processed; an event about nobody changes no person and is logged as
      unprocessed. */
  function HandleUpdate(s: Store, p: Payload, now: string): (r: (Store, Response))
    ensures r.1.acContactId == ContactId(p)
    ensures r.1.personId == ResolveForUpdate(s.persons, ContactId(p), EventEmail(p)).0
    ensures r.1.success <==> r.1.personId.Some?
    ensures r.1.message == (if r.1.success then UpdatedMessage else NotFoundMessage)
    ensures r.1.personId.None? ==> r.0.persons == s.persons && r.0.updates == s.updates
    ensures r.0.persons.Keys == s.persons.Keys
    ensures forall k :: k in s.persons && Some(k) != r.1.personId ==> r.0.persons[k] == s.persons[k]
    ensures |r.0.log| == |s.log| + 1 && r.0.log[..|s.log|] == s.log
    ensures r.0.log[|s.log|] == LogEvent(UpdateType, p, now, r.1.personId.Some?, r.1.personId,
      if r.1.personId.Some? then None else Some(NotInDatabaseError))
  {
    var (found, persons) := ResolveForUpdate(s.persons, ContactId(p), EventEmail(p));
    UpdateResolved(s, p, now, found, persons)
  }

  /** `handle_contact_update` as written: the email match is re-linked to the
      event's AC id even when it already holds another. */
  function HandleUpdateAsWritten(s: Store, p: Payload, now: string): (r: (Store, Response))
    ensures r.1.acContactId == ContactId(p)
    ensures r.1.personId == ResolveAsWritten(s.persons, ContactId(p), EventEmail(p)).0
    ensures r.1.success <==> r.1.personId.Some?
    ensures r.1.message == (if r.1.success then UpdatedMessage else NotFoundMessage)
    ensures r.1.personId.None? ==> r.0.persons == s.persons && r.0.updates == s.updates
    ensures r.0.persons.Keys == s.persons.Keys
    ensures forall k :: k in s.persons && Some(k) != r.1.personId ==> r.0.persons[k] == s.persons[k]
    ensures |r.0.log| == |s.log| + 1 && r.0.log[..|s.log|] == s.log
    ensures r.0.log[|s.log|] == LogEvent(UpdateType, p, now, r.1.personId.Some?, r.1.personId,
      if r.1.personId.Some? then None else Some(NotInDatabaseError))
    ensures FindByAcId(s.persons, ContactId(p)).None? && r.1.personId.Some? ==>
      r.0.persons[r.1.personId.value].acContactId == Some(ContactId(p))
  {
    var (found, persons) := ResolveAsWritten(s.persons, ContactId(p), EventEmail(p));
    if found.Some? then
      UpdateKeepsLinks(s.(persons := persons), found.value, ContactId(p), ExtractProfile(p), now);
      UpdateResolved(s, p, now, found, persons)
    else UpdateResolved(s, p, now, found, persons)
  }

  /** The guarded update handler and the handler as written send the same
      response, and leave the same store exactly outside `RelinksByEmail`; there
      the code as written moves the email match's AC id to the event's, while
      the guarded handler keeps the id it held. */
  lemma UpdateAsWrittenDiffers(s: Store, p: Payload, now: string)
    ensures HandleUpdateAsWritten(s, p, now).1 == HandleUpdate(s, p, now).1
    ensures !RelinksByEmail(s.persons, ContactId(p), EventEmail(p)) ==> HandleUpdateAsWritten(s, p, now) == HandleUpdate(s, p, now)
    ensures RelinksByEmail(s.persons, ContactId(p), EventEmail(p)) ==>
      var k := FindByEmail(s.persons, EventEmail(p)).value;
      && HandleUpdateAsWritten(s, p, now).0.persons[k].acContactId == Some(ContactId(p))
      && HandleUpdate(s, p, now).0.persons[k].acContactId == s.persons[k].acContactId
      && HandleUpdateAsWritten(s, p, now).0 != HandleUpdate(s, p, now).0
  {
    var acId := ContactId(p);
    var email := EventEmail(p);
    ResolveAsWrittenOverridesLink(s.persons, acId, email);
    if RelinksByEmail(s.persons, acId, email) {
      var k := FindByEmail(s.persons, email).value;
      UpdateKeepsLinks(s, k, acId, ExtractProfile(p), now);
      assert s.(persons := s.persons) == s;
      assert HandleUpdate(s, p, now).0.persons[k].acContactId != Some(acId);
    }
  }

  /** The update handler as written keeps the AC id index unique too: it re-links
      an email match only when nobody holds the event's AC id. */
  lemma UpdateAsWrittenKeepsUnique(s: Store, p: Payload, now: string)
    requires UniqueAcIds(s.persons)
    ensures UniqueAcIds(HandleUpdateAsWritten(s, p, now).0.persons)
  {
    var acId := ContactId(p);
    var (found, persons) := ResolveAsWritten(s.persons, acId, EventEmail(p));
    if found.Some? {
      if FindByAcId(s.persons, acId).None? {
        LinkPreservesUnique(s.persons, found.value, acId);
      }
      var linked := s.(persons := persons);
      UpdateKeepsLinks(linked, found.value, acId, ExtractProfile(p), now);
      assert HandleUpdateAsWritten(s, p, now).0.persons == UpdatePersonProfile(linked, found.value, acId, ExtractProfile(p), now).0.persons;
    }
  }

  /** Two rows hold the same value in every tracked field. */
  ghost predicate SameFields(p: Person, q: Person) {
    forall f :: Stored(p, f) == Stored(q, f)
  }

  /** `handle_contact_add`: a known person is linked to the AC id when its own is
      unset and the event is logged as processed; an unknown contact is logged
      as pending the next export. Profile fields and change records never
      change. */
  function HandleAdd(s: Store, p: Payload, now: string): (r: (Store, Response))
    ensures r.1.acContactId == ContactId(p)
    ensures r.1.personId == ResolveForAdd(s.persons, ContactId(p), EventEmail(p)).0
    ensures r.1.success <==> r.1.personId.Some?
    ensures r.1.message == (if r.1.success then LinkedMessage else NewContactMessage)
    ensures r.0.updates == s.updates
    ensures r.0.persons == ResolveForAdd(s.persons, ContactId(p), EventEmail(p)).1
    ensures r.0.persons.Keys == s.persons.Keys
    ensures forall k :: k in s.persons ==> SameFields(r.0.persons[k], s.persons[k])
    ensures forall k :: k in s.persons && Some(k) != r.1.personId ==> r.0.persons[k] == s.persons[k]
    ensures r.1.personId.Some? ==>
      r.0.persons[r.1.personId.value].acContactId == ResolvedLink(s.persons[r.1.personId.value].acContactId, ContactId(p))
    ensures |r.0.log| == |s.log| + 1 && r.0.log[..|s.log|] == s.log
    ensures r.0.log[|s.log|] == LogEvent(AddType, p, now, r.1.personId.Some?, r.1.personId,
      if r.1.personId.Some? then None else Some(PendingExportError))
  {
    var acId := ContactId(p);
    var (found, persons) := ResolveForAdd(s.persons, acId, EventEmail(p));
    match found
    case Some(k) =>
      (AppendLog(s.(persons := persons), LogEvent(AddType, p, now, true, Some(k), None)),
       Response(true, Some(k), acId, LinkedMessage))
    case None =>
      (AppendLog(s, LogEvent(AddType, p, now, false, None, Some(PendingExportError))),
       Response(false, None, acId, NewContactMessage))
  }

  /** `handle_contact_delete`: logs the event as processed and changes nothing else. */
  function HandleDelete(s: Store, p: Payload, now: string): (r: (Store, Response))
    ensures r.0.persons == s.persons && r.0.updates == s.updates
    ensures |r.0.log| == |s.log| + 1 && r.0.log[..|s.log|] == s.log
    ensures r.0.log[|s.log|] == LogEvent(DeleteType, p, now, true, None, None)
    ensures r.1 == Response(true, None, ContactId(p), DeletedMessage)
  {
    (AppendLog(s, LogEvent(DeleteType, p, now, true, None, None)),
     Response(true, None, ContactId(p), DeletedMessage))
  }

  /** The response in log-only mode, where no lookup finds anyone and nothing is
      written. */
  function LogOnlyResponse(kind: string, p: Payload): Response
  {
    Response(true, None, ContactId(p), if kind == DeleteType then DeletedMessage else LogOnlyMessage)
  }

  /** Routes an event by its normalised type. An unknown type is an error that
      leaves the store alone; without a database every known event succeeds and
      leaves the store alone. */
  function Dispatch(s: Store, p: Payload, now: string, dbAvailable: bool): (r: Result<(Store, Response), string>)
    ensures r.Failure? <==> NormalizeType(p.kind) !in {UpdateType, AddType, DeleteType}
    ensures r.Failure? ==> r.error == UnknownTypeError
    ensures r.Success? && !dbAvailable ==> r.value.0 == s && r.value.1.success && r.value.1.personId.None?
    ensures r.Success? && !dbAvailable ==> r.value.1.acContactId == ContactId(p)
    ensures r.Success? && !dbAvailable ==>
      r.value.1.message == (if p.kind in {"delete", DeleteType} then DeletedMessage else LogOnlyMessage)
    ensures r.Success? && dbAvailable ==> |r.value.0.log| == |s.log| + 1
    ensures r.Success? && dbAvailable ==> r.value.0.log[|s.log|].webhookType == NormalizeType(p.kind)
    ensures r.Success? && dbAvailable && NormalizeType(p.kind) == UpdateType ==> r.value == HandleUpdate(s, p, now)
    ensures r.Success? && dbAvailable && NormalizeType(p.kind) == AddType ==> r.value == HandleAdd(s, p, now)
    ensures r.Success? && dbAvailable && NormalizeType(p.kind) == DeleteType ==> r.value == HandleDelete(s, p, now)
  {
    var kind := NormalizeType(p.kind);
    if kind !in {UpdateType, AddType, DeleteType} then Failure(UnknownTypeError)
    else if !dbAvailable then Success((s, LogOnlyResponse(kind, p)))
    else if kind == UpdateType then Success(HandleUpdate(s, p, now))
    else if kind == AddType then Success(HandleAdd(s, p, now))
    else Success(HandleDelete(s, p, now))
  }

  // ---------------------------------------------------------------------------
  // Properties of the handlers

  /** An update event about a person leaves that person linked by the resolution
      rule, with every tracked field updated by the profile rule and one change
      record per due field. The AC profile source changes only when the email
      fallback links the person. */
  lemma UpdateEffect(s: Store, p: Payload, now: string)
    requires HandleUpdate(s, p, now).1.personId.Some?
    ensures var k := HandleUpdate(s, p, now).1.personId.value;
      var after := HandleUpdate(s, p, now).0;
      && k in s.persons
      && after.persons[k].acContactId == ResolvedLink(s.persons[k].acContactId, ContactId(p))
      && after.persons[k].acProfileSource ==
           (if FindByAcId(s.persons, ContactId(p)).Some? then s.persons[k].acProfileSource
            else ResolvedSource(s.persons[k].acContactId, s.persons[k].acProfileSource))
      && (forall f :: Stored(after.persons[k], f) == UpdatedValue(s.persons[k], ExtractProfile(p), f))
      && |s.updates| <= |after.updates| && after.updates[..|s.updates|] == s.updates
      && RecordsFor(after.updates[|s.updates|..], k, ContactId(p), s.persons[k], ExtractProfile(p))
  {
    var acId := ContactId(p);
    var (found, persons) := ResolveForUpdate(s.persons, acId, EventEmail(p));
    var k := found.value;
    var linked := s.(persons := persons);
    var prof := ExtractProfile(p);
    UpdateFieldEffect(linked, k, acId, prof, now);
    UpdateRecords(linked, k, acId, prof, now);
    forall f
      ensures Differs(persons[k], prof, f) == Differs(s.persons[k], prof, f)
      ensures UpdatedValue(persons[k], prof, f) == UpdatedValue(s.persons[k], prof, f)
    {
    }
    assert RecordsCover(UpdatePersonProfile(linked, k, acId, prof, now).0.updates[|s.updates|..], s.persons[k], prof);
    assert RecordsDue(UpdatePersonProfile(linked, k, acId, prof, now).0.updates[|s.updates|..], s.persons[k], prof);
  }

  /** An update keeps the AC id index unique. */
  lemma UpdateKeepsUnique(s: Store, p: Payload, now: string)
    requires UniqueAcIds(s.persons)
    ensures UniqueAcIds(HandleUpdate(s, p, now).0.persons)
  {
    var acId := ContactId(p);
    ResolveKeepsUnique(s.persons, acId, EventEmail(p));
    var (found, persons) := ResolveForUpdate(s.persons, acId, EventEmail(p));
    if found.Some? {
      var linked := s.(persons := persons);
      UpdateKeepsLinks(linked, found.value, acId, ExtractProfile(p), now);
      assert HandleUpdate(s, p, now).0.persons == UpdatePersonProfile(linked, found.value, acId, ExtractProfile(p), now).0.persons;
    }
  }

  /** An add keeps the AC id index unique. */
  lemma AddKeepsUnique(s: Store, p: Payload, now: string)
    requires UniqueAcIds(s.persons)
    ensures UniqueAcIds(HandleAdd(s, p, now).0.persons)
  {
    ResolveKeepsUnique(s.persons, ContactId(p), EventEmail(p));
  }

  /** The AC id takes precedence over the email: when a person holds the event's
      id, both update and add act on that person, whoever the email matches. */
  lemma AcIdTakesPrecedence(s: Store, p: Payload, now: string, k: PersonId)
    requires UniqueAcIds(s.persons)
    requires k in s.persons && s.persons[k].acContactId == Some(ContactId(p))
    ensures HandleUpdate(s, p, now).1.personId == Some(k)
    ensures HandleAdd(s, p, now).1.personId == Some(k)
  {
    FindByAcIdUnique(s.persons, ContactId(p), k);
  }

  /** An update for the holder of the event's AC id is exactly the profile update
      of that person followed by one processed log row. */
  lemma UpdateOfLinkedPerson(s: Store, p: Payload, now: string, k: PersonId)
    requires UniqueAcIds(s.persons)
    requires k in s.persons && s.persons[k].acContactId == Some(ContactId(p))
    ensures HandleUpdate(s, p, now) ==
      (AppendLog(UpdatePersonProfile(s, k, ContactId(p), ExtractProfile(p), now).0,
                 LogEvent(UpdateType, p, now, true, Some(k), None)),
       Response(true, Some(k), ContactId(p), UpdatedMessage))
  {
    FindByAcIdUnique(s.persons, ContactId(p), k);
    assert s.(persons := s.persons) == s;
  }

  /** A person that holds the AC id resolves to itself and nobody is re-linked. */
  lemma ResolveLinkedAgain(persons: map<PersonId, Person>, acId: string, email: string, k: PersonId)
    requires UniqueAcIds(persons)
    requires k in persons && persons[k].acContactId == Some(acId)
    ensures ResolveForUpdate(persons, acId, email) == (Some(k), persons)
  {
    FindByAcIdUnique(persons, acId, k);
  }

  /** A person found by email whose own AC id is set resolves to itself again
      after a change that keeps every AC id, every other row and its email match. */
  lemma ResolveByEmailAgain(a: map<PersonId, Person>, b: map<PersonId, Person>, acId: string, email: string, k: PersonId)
    requires FindByAcId(a, acId).None? && FindByEmail(a, email) == Some(k)
    requires a.Keys == b.Keys
    requires forall j :: j in a && j != k ==> b[j] == a[j]
    requires b[k].acContactId == a[k].acContactId && !IsUnset(b[k].acContactId)
    requires EmailMatches(b[k].primaryEmail, email)
    ensures ResolveForUpdate(b, acId, email) == (Some(k), b)
  {
    assert FindByAcId(b, acId).None? by {
      assert forall j :: j in b ==> b[j].acContactId == a[j].acContactId;
    }
    assert FindByEmail(b, email) == Some(k) by {
      FindByEmailStable(a, b, email, k);
    }
  }

  /** A person the event resolved to resolves to itself again, linking nobody,
      after a change that gives it the resolved link and keeps every other row,
      provided its email is either unchanged or the event's own. */
  lemma ResolvesSameAfter(before: map<PersonId, Person>, after: map<PersonId, Person>, acId: string, email: string, k: PersonId)
    requires UniqueAcIds(after)
    requires ResolveForUpdate(before, acId, email).0 == Some(k)
    requires after.Keys == before.Keys
    requires forall j :: j in before && j != k ==> after[j] == before[j]
    requires after[k].acContactId == ResolvedLink(before[k].acContactId, acId)
    requires after[k].primaryEmail == before[k].primaryEmail || after[k].primaryEmail == Some(email)
    requires EmailMatches(Some(email), email)
    ensures ResolveForUpdate(after, acId, email) == (Some(k), after)
  {
    if after[k].acContactId == Some(acId) {
      ResolveLinkedAgain(after, acId, email, k);
    } else {
      assert FindByAcId(before, acId).None?;
      assert EmailMatches(after[k].primaryEmail, email);
      ResolveByEmailAgain(before, after, acId, email, k);
    }
  }

  /** After an update about `k`, the same event resolves to `k` again and links
      nobody. */
  lemma RedeliveryResolvesSame(s: Store, p: Payload, now: string)
    requires UniqueAcIds(s.persons)
    requires HandleUpdate(s, p, now).1.personId.Some?
    ensures var k := HandleUpdate(s, p, now).1.personId.value;
      var s1 := HandleUpdate(s, p, now).0;
      ResolveForUpdate(s1.persons, ContactId(p), EventEmail(p)) == (Some(k), s1.persons)
  {
    var k := HandleUpdate(s, p, now).1.personId.value;
    var before := s.persons;
    var after := HandleUpdate(s, p, now).0.persons;
    UpdateEffect(s, p, now);
    UpdateKeepsUnique(s, p, now);
    EventEmailMatchesItself(p);
    assert Stored(after[k], PrimaryEmail) == UpdatedValue(before[k], ExtractProfile(p), PrimaryEmail);
    ResolvesSameAfter(before, after, ContactId(p), EventEmail(p), k);
  }
  /** Re-delivering an update event changes no person and writes no change record,
      whether or not the first delivery found anyone. */
  lemma RedeliveryIsNoOp(s: Store, p: Payload, now: string, later: string)
    requires UniqueAcIds(s.persons)
    ensures var s1 := HandleUpdate(s, p, now).0;
      var s2 := HandleUpdate(s1, p, later).0;
      s2.persons == s1.persons && s2.updates == s1.updates
  {
    var r1 := HandleUpdate(s, p, now);
    var s1 := r1.0;
    if r1.1.personId.Some? {
      var k := r1.1.personId.value;
      var acId := ContactId(p);
      var prof := ExtractProfile(p);
      UpdateEffect(s, p, now);
      RedeliveryResolvesSame(s, p, now);
      forall f
        ensures !Differs(s1.persons[k], prof, f)
      {
      }
      UpdateWithoutChanges(s1, k, acId, prof, later);
      assert s1.(persons := s1.persons) == s1;
    }
  }
}

=== FILE: payload.dfy ===
/** The inbound webhook payload as the receiver sees it after parsing: a
    `type`, a `contact` object and an optional top-level `contact_id`. Every
    value is text, and a missing key reads as the empty string, as
    `dict.get(key, '')` makes it. */
module Payload {
  import opened Text

  /** One `{field, value}` entry of the contact's custom `fieldValues` list. */
  datatype FieldEntry = FieldEntry(field: string, value: string)

  /** The `contact` object: its plain keys (`id`, `email`, `firstName`, ...) and
      its custom-field list. */
  datatype Contact = Contact(attrs: map<string, string>, fieldValues: seq<FieldEntry>)

  datatype Payload = Payload(kind: string, contact: Contact, contactId: string)

  /** `d.get(key, '')` on a text-valued dictionary. */
  function Get(d: map<string, string>, key: string): string {
    if key in d then d[key] else ""
  }

  /** The AC contact id of an event: `contact.id` when it is non-empty, and the
      top-level `contact_id` otherwise. */
  function ContactId(p: Payload): (r: string)
    ensures Get(p.contact.attrs, "id") != "" ==> r == p.contact.attrs["id"]
    ensures Get(p.contact.attrs, "id") == "" ==> r == p.contactId
    ensures r == "" <==> Get(p.contact.attrs, "id") == "" && p.contactId == ""
  {
    var id := Get(p.contact.attrs, "id");
    if id != "" then id else p.contactId
  }

  /** The event's email, lower-cased and stripped. */
  function EventEmail(p: Payload): string {
    PyNorm(Get(p.contact.attrs, "email"))
  }

  /** The event's email is already in normal form: normalising it again changes
      nothing, it has no upper-case letter and no surrounding whitespace. */
  lemma EventEmailIsNormal(p: Payload)
    ensures PyNorm(EventEmail(p)) == EventEmail(p)
    ensures NoUpper(EventEmail(p))
    ensures var r := EventEmail(p); |r| == 0 || (!IsPyWhitespace(r[0]) && !IsPyWhitespace(r[|r| - 1]))
  {
    var e := Get(p.contact.attrs, "email");
    PyNormIdempotent(e);
    PyNormIsLowerCase(e);
  }

  // ---------------------------------------------------------------------------
  // Form-encoded bodies

  const ContactKeyPrefix: string := "contact["

  /** A form key addressed to the contact object. */
  predicate IsContactKey(key: string) {
    StartsWith(key, ContactKeyPrefix)
  }

  /** The contact attribute a form key names:
      `key.replace('contact[', '').replace(']', '')`. */
  function StripContactKey(key: string): string {
    RemoveAll(RemoveAll(key, ContactKeyPrefix), "]")
  }

  /** The attribute name never holds a closing bracket. */
  lemma StripContactKeyHasNoBracket(key: string)
    ensures var r := StripContactKey(key); forall k :: 0 <= k < |r| ==> r[k] != ']'
  {
    RemoveCharKeepsOthers(RemoveAll(key, ContactKeyPrefix), ']');
  }

  /** A bracketed plain name strips back to that name. */
  lemma StripContactKeyOfBracketed(name: string)
    requires forall k :: 0 <= k < |name| ==> name[k] != '[' && name[k] != ']'
    ensures IsContactKey(ContactKeyPrefix + name + "]")
    ensures StripContactKey(ContactKeyPrefix + name + "]") == name
  {
    var key := ContactKeyPrefix + name + "]";
    assert key[..|ContactKeyPrefix|] == ContactKeyPrefix;
    assert key == ContactKeyPrefix + (name + "]");
    RemoveAllPrefix(ContactKeyPrefix, name + "]");
    var w := name + "]";
    forall i | 0 <= i && i + |ContactKeyPrefix| <= |w|
      ensures !OccursAt(w, ContactKeyPrefix, i)
    {
      assert w[i..i + |ContactKeyPrefix|][7] == w[i + 7] != '[';
    }
    RemoveAllAbsent(name + "]", ContactKeyPrefix);
    RemoveTrailingChar(name, ']');
  }

  /** The first value the form holds for `key`, or `default`: `form.get(key, default)`. */
  function FormGet(items: seq<(string, string)>, key: string, default: string): (r: string)
    ensures (forall i :: 0 <= i < |items| ==> items[i].0 != key) ==> r == default
    ensures forall i :: FirstKeyAt(items, key, i) ==> r == items[i].1
  {
    if |items| == 0 then default
    else if items[0].0 == key then items[0].1
    else
      assert forall i :: FirstKeyAt(items, key, i) ==> i > 0 && FirstKeyAt(items[1..], key, i - 1);
      FormGet(items[1..], key, default)
  }

  /** Item `i` is the first one with `key`. */
  predicate FirstKeyAt(items: seq<(string, string)>, key: string, i: int) {
    && 0 <= i < |items|
    && items[i].0 == key
    && (forall j :: 0 <= j < i ==> items[j].0 != key)
  }

  /** Among the first `n` items, item `i` is the last one with key `type`. */
  predicate LastTypeAt(items: seq<(string, string)>, n: int, i: int)
    requires n <= |items|
  {
    && 0 <= i < n
    && items[i].0 == "type"
    && (forall j :: i < j < n ==> items[j].0 != "type")
  }

  /** Some item among the first `n` is a contact key naming attribute `name`. */
  predicate NamesAttr(items: seq<(string, string)>, n: int, name: string)
    requires n <= |items|
  {
    exists i :: 0 <= i < n && IsContactKey(items[i].0) && StripContactKey(items[i].0) == name
  }

  /** Among the first `n` items, item `i` is the last contact key naming its attribute. */
  predicate LastForAttr(items: seq<(string, string)>, n: int, i: int)
    requires n <= |items|
  {
    && 0 <= i < n
    && IsContactKey(items[i].0)
    && (forall j :: i < j < n && IsContactKey(items[j].0) ==>
          StripContactKey(items[j].0) != StripContactKey(items[i].0))
  }

  /** The `type` the parsing loop holds after its first `n` items. */
  ghost function KindAfter(items: seq<(string, string)>, n: nat): string
    requires n <= |items|
  {
    if n == 0 then FormGet(items, "type", "contact_update")
    else if !IsContactKey(items[n - 1].0) && items[n - 1].0 == "type" then items[n - 1].1
    else KindAfter(items, n - 1)
  }

  /** The contact attributes the parsing loop holds after its first `n` items. */
  ghost function AttrsAfter(items: seq<(string, string)>, n: nat): map<string, string>
    requires n <= |items|
  {
    if n == 0 then map[]
    else if IsContactKey(items[n - 1].0) then
      AttrsAfter(items, n - 1)[StripContactKey(items[n - 1].0) := items[n - 1].1]
    else AttrsAfter(items, n - 1)
  }

  /** Until a `type` item is seen the loop keeps the form's first `type` value. */
  lemma {:induction false} KindAfterWithoutType(items: seq<(string, string)>, n: nat)
    requires n <= |items|
    requires forall i :: 0 <= i < n ==> items[i].0 != "type"
    ensures KindAfter(items, n) == FormGet(items, "type", "contact_update")
  {
    if n > 0 {
      KindAfterWithoutType(items, n - 1);
    }
  }

  /** After `n` items the loop's `type` is the value of the last `type` item,
      and the form's default when there is none. */
  lemma {:induction false} KindAfterIsLastType(items: seq<(string, string)>, n: nat)
    requires n <= |items|
    ensures forall i :: LastTypeAt(items, n, i) ==> KindAfter(items, n) == items[i].1
    ensures (forall i :: 0 <= i < n ==> items[i].0 != "type") ==>
      KindAfter(items, n) == FormGet(items, "type", "contact_update")
  {
    if forall i :: 0 <= i < n ==> items[i].0 != "type" {
      KindAfterWithoutType(items, n);
    }
    if n > 0 {
      KindAfterIsLastType(items, n - 1);
      if items[n - 1].0 != "type" {
        assert forall i :: LastTypeAt(items, n, i) ==> LastTypeAt(items, n - 1, i);
      }
    }
  }

  /** After `n` items the loop's attributes are exactly those some contact key
      names. */
  lemma {:induction false} AttrsAfterDomain(items: seq<(string, string)>, n: nat)
    requires n <= |items|
    ensures forall name :: name in AttrsAfter(items, n) <==> NamesAttr(items, n, name)
  {
    if n > 0 {
      var m := n - 1;
      AttrsAfterDomain(items, m);
      forall name | NamesAttr(items, n, name)
        ensures NamesAttr(items, m, name) || (IsContactKey(items[m].0) && StripContactKey(items[m].0) == name)
      {
        var i :| 0 <= i < n && IsContactKey(items[i].0) && StripContactKey(items[i].0) == name;
        if i < m {
          assert NamesAttr(items, m, name);
        }
      }
      if IsContactKey(items[m].0) {
        assert NamesAttr(items, n, StripContactKey(items[m].0));
      }
    }
  }

  /** After `n` items each attribute holds the value of the last key naming it. */
  lemma {:induction false} AttrsAfterIsLastKey(items: seq<(string, string)>, n: nat)
    requires n <= |items|
    ensures forall i :: LastForAttr(items, n, i) ==>
      && StripContactKey(items[i].0) in AttrsAfter(items, n)
      && AttrsAfter(items, n)[StripContactKey(items[i].0)] == items[i].1
  {
    if n > 0 {
      var m := n - 1;
      AttrsAfterIsLastKey(items, m);
      forall i | LastForAttr(items, n, i) && i < m
        ensures LastForAttr(items, m, i)
      {
      }
    }
  }

  /** Builds a payload from a form-encoded body, given the `(key, value)` pairs its
      `items()` yields. The form is a multi-valued dictionary whose `items()`
      yields each key once, with its first value, so the keys are distinct.
      `type` defaults to `contact_update`, every `contact[...]` key becomes a
      contact attribute (a later key naming the same attribute, such as
      `contact[a]` and `contact[a]]`, wins), and the payload has neither custom
      fields nor a top-level id. */
  method ParseForm(items: seq<(string, string)>) returns (p: Payload)
    requires forall i, j :: 0 <= i < j < |items| ==> items[i].0 != items[j].0
    ensures p.contactId == "" && p.contact.fieldValues == []
    ensures (forall i :: 0 <= i < |items| ==> items[i].0 != "type") ==> p.kind == "contact_update"
    ensures forall i :: 0 <= i < |items| && items[i].0 == "type" ==> p.kind == items[i].1
    ensures forall name :: name in p.contact.attrs <==> NamesAttr(items, |items|, name)
    ensures forall i :: LastForAttr(items, |items|, i) ==>
      && StripContactKey(items[i].0) in p.contact.attrs
      && p.contact.attrs[StripContactKey(items[i].0)] == items[i].1
  {
    var kind := FormGet(items, "type", "contact_update");
    var attrs: map<string, string> := map[];
    for n := 0 to |items|
      invariant kind == KindAfter(items, n)
      invariant attrs == AttrsAfter(items, n)
    {
      var key := items[n].0;
      var value := items[n].1;
      if IsContactKey(key) {
        attrs := attrs[StripContactKey(key) := value];
      } else if key == "type" {
        kind := value;
      }
    }
    if forall i :: 0 <= i < |items| ==> items[i].0 != "type" {
      KindAfterWithoutType(items, |items|);
    }
    KindAfterIsLastType(items, |items|);
    assert forall i :: 0 <= i < |items| && items[i].0 == "type" ==> LastTypeAt(items, |items|, i);
    AttrsAfterDomain(items, |items|);
    AttrsAfterIsLastKey(items, |items|);
    p := Payload(kind, Contact(attrs, []), "");
  }
}

=== FILE: profile.dfy ===
/** Profile extraction: the tracked person fields, the keyword classification
    of custom fields, and the profile a payload carries. */
module Profile {
  import opened Wrappers
  import opened Text
  import opened Payload

  /** The person fields a webhook may change, in the order the update compares
      them. */
  datatype Field = Name | PrimaryEmail | Phone | Company | Position | Industry | Location | ProfessionalSummary

  /** The fields that only custom `fieldValues` entries can supply. */
  predicate IsCustom(f: Field) {
    f in {Company, Industry, Position, Location, ProfessionalSummary}
  }

  /** The classification keywords, in the order they are tried, with the field each
      one selects. */
  const Keywords: seq<(string, Field)> := [
    ("company", Company),
    ("industry", Industry),
    ("job", Position),
    ("title", Position),
    ("location", Location),
    ("summary", ProfessionalSummary)
  ]

  /** Keyword `k` is the first one the lower-cased name contains. */
  predicate FirstKeywordAt(lowered: string, k: int)
    requires 0 <= k < |Keywords|
  {
    && Contains(lowered, Keywords[k].0)
    && forall j :: 0 <= j < k ==> !Contains(lowered, Keywords[j].0)
  }

  /** The field a custom entry's declared name maps to: the field of the first
      keyword its lower-cased name contains, or nothing when it contains none. */
  function Classify(fieldName: string): (r: Option<Field>)
    ensures r.None? <==> forall k :: 0 <= k < |Keywords| ==> !Contains(Lower(fieldName), Keywords[k].0)
    ensures r.Some? ==> exists k :: 0 <= k < |Keywords| && FirstKeywordAt(Lower(fieldName), k) && Keywords[k].1 == r.value
    ensures r.Some? ==> IsCustom(r.value)
  {
    var n := Lower(fieldName);
    if Contains(n, "company") then
      assert FirstKeywordAt(n, 0);
      Some(Company)
    else if Contains(n, "industry") then
      assert FirstKeywordAt(n, 1);
      Some(Industry)
    else if Contains(n, "job") then
      assert FirstKeywordAt(n, 2);
      Some(Position)
    else if Contains(n, "title") then
      assert FirstKeywordAt(n, 3);
      Some(Position)
    else if Contains(n, "location") then
      assert FirstKeywordAt(n, 4);
      Some(Location)
    else if Contains(n, "summary") then
      assert FirstKeywordAt(n, 5);
      Some(ProfessionalSummary)
    else
      None
  }

  /** The profile dictionary: four structured values that are always present, and
      the custom fields some entry classified. */
  datatype Profile = Profile(
    firstName: string,
    lastName: string,
    email: string,
    phone: string,
    custom: map<Field, string>)

  /** Folds custom entries into the profile in list order; an entry that
      classifies overwrites whatever an earlier entry left for its field. */
  function ApplyFieldValues(custom: map<Field, string>, entries: seq<FieldEntry>): (r: map<Field, string>)
    decreases |entries|
  {
    if |entries| == 0 then custom
    else
      var c := Classify(entries[0].field);
      var next := if c.Some? then custom[c.value := entries[0].value] else custom;
      ApplyFieldValues(next, entries[1..])
  }

  /** Entry `i` is the last one that classifies as `f`. */
  predicate LastEntryFor(entries: seq<FieldEntry>, f: Field, i: int) {
    && 0 <= i < |entries|
    && Classify(entries[i].field) == Some(f)
    && forall j :: i < j < |entries| ==> Classify(entries[j].field) != Some(f)
  }

  /** No entry classifies as `f`: the fold leaves `f` as it was. */
  lemma {:induction false} ApplyFieldValuesUntouched(custom: map<Field, string>, entries: seq<FieldEntry>, f: Field)
    requires forall j :: 0 <= j < |entries| ==> Classify(entries[j].field) != Some(f)
    ensures f in ApplyFieldValues(custom, entries) <==> f in custom
    ensures f in custom ==> ApplyFieldValues(custom, entries)[f] == custom[f]
    decreases |entries|
  {
    if |entries| > 0 {
      var c := Classify(entries[0].field);
      var next := if c.Some? then custom[c.value := entries[0].value] else custom;
      assert forall j :: 0 <= j < |entries| - 1 ==> entries[1..][j] == entries[j + 1];
      ApplyFieldValuesUntouched(next, entries[1..], f);
    }
  }

  /** The last entry that classifies as `f` supplies its value. */
  lemma {:induction false} ApplyFieldValuesLastWins(custom: map<Field, string>, entries: seq<FieldEntry>, f: Field, i: int)
    requires LastEntryFor(entries, f, i)
    ensures f in ApplyFieldValues(custom, entries)
    ensures ApplyFieldValues(custom, entries)[f] == entries[i].value
    decreases |entries|
  {
    var c := Classify(entries[0].field);
    var next := if c.Some? then custom[c.value := entries[0].value] else custom;
    var rest := entries[1..];
    assert forall j :: 0 <= j < |rest| ==> rest[j] == entries[j + 1];
    if i == 0 {
      ApplyFieldValuesUntouched(next, rest, f);
    } else {
      assert LastEntryFor(rest, f, i - 1);
      ApplyFieldValuesLastWins(next, rest, f, i - 1);
    }
  }

  /** The custom fields the contact's `fieldValues` supply. */
  function CustomFields(entries: seq<FieldEntry>): (r: map<Field, string>)
    ensures forall f :: f in r ==> IsCustom(f)
    ensures forall f :: f in r <==> exists i :: 0 <= i < |entries| && Classify(entries[i].field) == Some(f)
    ensures forall f, i :: LastEntryFor(entries, f, i) ==> f in r && r[f] == entries[i].value
  {
    var r := ApplyFieldValues(map[], entries);
    forall f
      ensures f in r <==> exists i :: 0 <= i < |entries| && Classify(entries[i].field) == Some(f)
      ensures forall i :: LastEntryFor(entries, f, i) ==> f in r && r[f] == entries[i].value
    {
      if exists i :: 0 <= i < |entries| && Classify(entries[i].field) == Some(f) {
        var i := LastIndexFor(entries, f);
        ApplyFieldValuesLastWins(map[], entries, f, i);
        forall i' | LastEntryFor(entries, f, i')
          ensures i' == i
        {
        }
      } else {
        ApplyFieldValuesUntouched(map[], entries, f);
      }
    }
    r
  }

  /** The index of the last element satisfying `p`. */
  function LastWhere<T>(xs: seq<T>, p: T -> bool): (i: int)
    requires exists i :: 0 <= i < |xs| && p(xs[i])
    ensures 0 <= i < |xs| && p(xs[i])
    ensures forall j :: i < j < |xs| ==> !p(xs[j])
    decreases |xs|
  {
    var last := |xs| - 1;
    if p(xs[last]) then last
    else
      var prefix := xs[..last];
      assert exists i :: 0 <= i < |prefix| && p(prefix[i]) by {
        var i :| 0 <= i < |xs| && p(xs[i]);
        assert prefix[i] == xs[i];
      }
      LastWhere(prefix, p)
  }

  /** The index of the last entry classified as `f`. */
  function LastIndexFor(entries: seq<FieldEntry>, f: Field): (i: int)
    requires exists i :: 0 <= i < |entries| && Classify(entries[i].field) == Some(f)
    ensures LastEntryFor(entries, f, i)
  {
    var p := (e: FieldEntry) => Classify(e.field) == Some(f);
    assert exists i :: 0 <= i < |entries| && p(entries[i]);
    LastWhere(entries, p)
  }

  /** The profile a payload carries: a name part comes from its camelCase key
      when that is non-empty and from its snake_case key otherwise; the email is
      the one the lookups use, already in normal form; the phone is taken as
      sent; and each custom field present is one some entry classifies as,
      holding the value of the last such entry. */
  function ExtractProfile(p: Payload): (r: Profile)
    ensures Get(p.contact.attrs, "firstName") != "" ==> r.firstName == Get(p.contact.attrs, "firstName")
    ensures Get(p.contact.attrs, "firstName") == "" ==> r.firstName == Get(p.contact.attrs, "first_name")
    ensures r.firstName == "" <==> Get(p.contact.attrs, "firstName") == "" && Get(p.contact.attrs, "first_name") == ""
    ensures Get(p.contact.attrs, "lastName") != "" ==> r.lastName == Get(p.contact.attrs, "lastName")
    ensures Get(p.contact.attrs, "lastName") == "" ==> r.lastName == Get(p.contact.attrs, "last_name")
    ensures r.lastName == "" <==> Get(p.contact.attrs, "lastName") == "" && Get(p.contact.attrs, "last_name") == ""
    ensures r.email == EventEmail(p) && PyNorm(r.email) == r.email
    ensures r.phone == Get(p.contact.attrs, "phone")
    ensures forall f :: f in r.custom ==> IsCustom(f)
    ensures forall f :: f in r.custom <==>
      exists i :: 0 <= i < |p.contact.fieldValues| && Classify(p.contact.fieldValues[i].field) == Some(f)
    ensures forall f, i :: LastEntryFor(p.contact.fieldValues, f, i) ==>
      f in r.custom && r.custom[f] == p.contact.fieldValues[i].value
  {
    var a := p.contact.attrs;
    EventEmailIsNormal(p);
    Profile(
      if Get(a, "firstName") != "" then Get(a, "firstName") else Get(a, "first_name"),
      if Get(a, "lastName") != "" then Get(a, "lastName") else Get(a, "last_name"),
      EventEmail(p),
      Get(a, "phone"),
      CustomFields(p.contact.fieldValues))
  }
}

=== FILE: reconcile.dfy ===
/** The field-level diff between a stored person and an incoming profile, and
    the update that applies it and records one change per changed field. */
module Reconcile {
  import opened Wrappers
  import opened Text
  import opened Profile
  import opened Store

  /** The number of tracked fields. */
  const NumTracked: nat := 8

  /** Every field from position `k` on other than the one at `k` comes after `k`. */
  lemma RankStep(k: nat)
    requires k < NumTracked
    ensures forall g :: k <= Rank(g) && g != FieldAt(k) ==> k + 1 <= Rank(g)
  {
  }

  /** A field's position in the order the update compares fields. */
  function Rank(f: Field): (n: nat)
    ensures n < NumTracked
  {
    match f
    case Name => 0
    case PrimaryEmail => 1
    case Phone => 2
    case Company => 3
    case Position => 4
    case Industry => 5
    case Location => 6
    case ProfessionalSummary => 7
  }

  /** The field at position `k` of the comparison order: name, email, phone,
      company, position, industry, location, summary. */
  function FieldAt(k: nat): (f: Field)
    requires k < NumTracked
    ensures Rank(f) == k
  {
    if k == 0 then Name
    else if k == 1 then PrimaryEmail
    else if k == 2 then Phone
    else if k == 3 then Company
    else if k == 4 then Position
    else if k == 5 then Industry
    else if k == 6 then Location
    else ProfessionalSummary
  }

  /** The source tag every change record carries. */
  const WebhookSource: string := "webhook"

  /** The display name a profile proposes: first and last name joined by a space
      and stripped, considered only when either part is non-empty. */
  function CandidateName(prof: Profile): (r: string)
    ensures prof.firstName == "" && prof.lastName == "" ==> r == ""
    ensures |r| == 0 || (!IsPyWhitespace(r[0]) && !IsPyWhitespace(r[|r| - 1]))
  {
    if prof.firstName != "" || prof.lastName != "" then
      StripEnds(prof.firstName + " " + prof.lastName, IsPyWhitespace);
      PyStrip(prof.firstName + " " + prof.lastName)
    else ""
  }

  /** The value a profile offers for a tracked field, `""` when it offers none
      (an absent custom field reads as empty, as `dict.get` makes it). */
  function Incoming(prof: Profile, f: Field): string {
    match f
    case Name => CandidateName(prof)
    case PrimaryEmail => prof.email
    case Phone => prof.phone
    case _ => if f in prof.custom then prof.custom[f] else ""
  }

  /** The rule for every tracked field: a change is due when the incoming value
      is non-empty and differs from the stored one (a NULL column always differs). */
  predicate Differs(person: Person, prof: Profile, f: Field) {
    Incoming(prof, f) != "" && Some(Incoming(prof, f)) != Stored(person, f)
  }

  /** One entry of `changes_logged`: a field with its old and new value. */
  datatype Change = Change(field: Field, oldValue: Option<string>, newValue: string)

  /** The change is due and carries the stored value as old and the incoming one as new. */
  predicate IsDueChange(person: Person, prof: Profile, c: Change) {
    && Differs(person, prof, c.field)
    && c.oldValue == Stored(person, c.field)
    && c.newValue == Incoming(prof, c.field)
  }

  /** Changes list their fields in comparison order, hence each field at most once. */
  predicate InTrackedOrder(cs: seq<Change>) {
    forall i, j :: 0 <= i < j < |cs| ==> Rank(cs[i].field) < Rank(cs[j].field)
  }

  /** Some change in `cs` is for field `f`. */
  predicate HasChangeFor(cs: seq<Change>, f: Field)
    decreases |cs|
  {
    |cs| > 0 && (cs[0].field == f || HasChangeFor(cs[1..], f))
  }

  /** `cs` has a change for `f` exactly when some position holds one. */
  lemma {:induction false} HasChangeForIndex(cs: seq<Change>, f: Field)
    ensures HasChangeFor(cs, f) <==> exists i :: 0 <= i < |cs| && cs[i].field == f
    decreases |cs|
  {
    if |cs| > 0 {
      var rest := cs[1..];
      HasChangeForIndex(rest, f);
      if HasChangeFor(rest, f) {
        var j :| 0 <= j < |rest| && rest[j].field == f;
        assert cs[j + 1].field == f;
      }
      if exists i :: 0 <= i < |cs| && cs[i].field == f {
        var i :| 0 <= i < |cs| && cs[i].field == f;
        if i > 0 {
          assert rest[i - 1].field == f;
        }
      }
    }
  }

  lemma HasChangeForCons(c: Change, rest: seq<Change>)
    ensures forall g :: HasChangeFor([c] + rest, g) <==> c.field == g || HasChangeFor(rest, g)
  {
    assert ([c] + rest)[1..] == rest;
  }

  /** An ordered change list names each field at most once. */
  lemma OrderedFieldsDistinct(cs: seq<Change>)
    requires InTrackedOrder(cs)
    ensures forall i, j :: 0 <= i < j < |cs| ==> cs[i].field != cs[j].field
  {
  }

  lemma OrderCons(c: Change, rest: seq<Change>)
    requires InTrackedOrder(rest)
    requires forall i :: 0 <= i < |rest| ==> Rank(c.field) < Rank(rest[i].field)
    ensures InTrackedOrder([c] + rest)
  {
    var r := [c] + rest;
    forall i, j | 0 <= i < j < |r|
      ensures Rank(r[i].field) < Rank(r[j].field)
    {
      assert r[j] == rest[j - 1];
      if i > 0 {
        assert r[i] == rest[i - 1];
      }
    }
  }

  /** The changes due for the tracked fields from position `k` on. */
  function DiffFrom(person: Person, prof: Profile, k: nat): seq<Change>
    requires k <= NumTracked
    // `person` joins the measure only so that a literal `k` does not let the
    // verifier unroll every position at once.
    decreases NumTracked - k, person
  {
    if k == NumTracked then []
    else
      var f := FieldAt(k);
      var rest := DiffFrom(person, prof, k + 1);
      if Differs(person, prof, f) then [Change(f, Stored(person, f), Incoming(prof, f))] + rest
      else rest
  }

  /** Every change concerns a field at or after position `k`. */
  predicate FieldsFrom(cs: seq<Change>, k: nat) {
    forall i :: 0 <= i < |cs| ==> k <= Rank(cs[i].field)
  }

  /** Every change is due. */
  predicate AllDue(person: Person, prof: Profile, cs: seq<Change>) {
    forall i :: 0 <= i < |cs| ==> IsDueChange(person, prof, cs[i])
  }

  /** Every due field at or after position `k` has a change. */
  predicate CoversFrom(person: Person, prof: Profile, cs: seq<Change>, k: nat) {
    forall g :: k <= Rank(g) && Differs(person, prof, g) ==> HasChangeFor(cs, g)
  }

  lemma {:induction false} DiffFromRanks(person: Person, prof: Profile, k: nat)
    requires k <= NumTracked
    ensures FieldsFrom(DiffFrom(person, prof, k), k)
    decreases NumTracked - k
  {
    if k < NumTracked {
      DiffFromRanks(person, prof, k + 1);
      var rest := DiffFrom(person, prof, k + 1);
      if Differs(person, prof, FieldAt(k)) {
        var r := DiffFrom(person, prof, k);
        assert forall i :: 0 < i < |r| ==> r[i] == rest[i - 1];
      }
    }
  }

  lemma {:induction false} DiffFromDue(person: Person, prof: Profile, k: nat)
    requires k <= NumTracked
    ensures AllDue(person, prof, DiffFrom(person, prof, k))
    decreases NumTracked - k
  {
    if k < NumTracked {
      DiffFromDue(person, prof, k + 1);
      var rest := DiffFrom(person, prof, k + 1);
      if Differs(person, prof, FieldAt(k)) {
        var r := DiffFrom(person, prof, k);
        assert forall i :: 0 < i < |r| ==> r[i] == rest[i - 1];
      }
    }
  }

  /** A list of due changes mentions only due fields. */
  lemma DueChangesAreDue(person: Person, prof: Profile, r: seq<Change>)
    requires AllDue(person, prof, r)
    ensures forall f :: HasChangeFor(r, f) ==> Differs(person, prof, f)
    ensures r != [] ==> Differs(person, prof, r[0].field)
  {
    forall f | HasChangeFor(r, f)
      ensures Differs(person, prof, f)
    {
      HasChangeForIndex(r, f);
      var i :| 0 <= i < |r| && r[i].field == f;
      assert IsDueChange(person, prof, r[i]);
    }
  }

  /** The changes from position `k` on follow the comparison order. */
  lemma {:induction false} DiffFromOrdered(person: Person, prof: Profile, k: nat)
    requires k <= NumTracked
    ensures InTrackedOrder(DiffFrom(person, prof, k))
    decreases NumTracked - k
  {
    if k < NumTracked {
      DiffFromOrdered(person, prof, k + 1);
      var f := FieldAt(k);
      if Differs(person, prof, f) {
        DiffFromRanks(person, prof, k + 1);
        OrderCons(Change(f, Stored(person, f), Incoming(prof, f)), DiffFrom(person, prof, k + 1));
      }
    }
  }

  lemma {:induction false} DiffFromCovers(person: Person, prof: Profile, k: nat)
    requires k <= NumTracked
    ensures CoversFrom(person, prof, DiffFrom(person, prof, k), k)
    decreases NumTracked - k
  {
    if k < NumTracked {
      DiffFromCovers(person, prof, k + 1);
      RankStep(k);
      var f := FieldAt(k);
      if Differs(person, prof, f) {
        HasChangeForCons(Change(f, Stored(person, f), Incoming(prof, f)), DiffFrom(person, prof, k + 1));
      }
    }
  }

  /** The diff of the update: exactly the due changes, one per field, in the
      order name, email, phone, company, position, industry, location, summary. */
  function Diff(person: Person, prof: Profile): (r: seq<Change>)
    ensures forall i :: 0 <= i < |r| ==> IsDueChange(person, prof, r[i])
    ensures InTrackedOrder(r)
    ensures forall f :: Differs(person, prof, f) <==> HasChangeFor(r, f)
    ensures r == [] <==> forall f :: !Differs(person, prof, f)
  {
    var r := DiffFrom(person, prof, 0);
    DiffFromDue(person, prof, 0);
    DiffFromOrdered(person, prof, 0);
    DiffFromCovers(person, prof, 0);
    DueChangesAreDue(person, prof, r);
    r
  }

  /** Writes each change's new value into its field. */
  function ApplyChanges(person: Person, cs: seq<Change>): (r: Person)
    requires InTrackedOrder(cs)
    ensures forall i :: 0 <= i < |cs| ==> Stored(r, cs[i].field) == Some(cs[i].newValue)
    ensures forall f :: !HasChangeFor(cs, f) ==> Stored(r, f) == Stored(person, f)
    ensures r.acContactId == person.acContactId && r.acLastSynced == person.acLastSynced
    ensures r.acProfileSource == person.acProfileSource
    decreases |cs|
  {
    if |cs| == 0 then person
    else
      var rest := cs[1..];
      assert forall f :: HasChangeFor(rest, f) ==> HasChangeFor(cs, f);
      assert forall i :: 0 <= i < |rest| ==> rest[i].field != cs[0].field;
      HasChangeForIndex(rest, cs[0].field);
      ApplyChanges(WithField(person, cs[0].field, cs[0].newValue), rest)
  }

  /** Every record belongs to the person and AC contact of the update and carries
      the `webhook` source tag. */
  ghost predicate RecordsTagged(recs: seq<ChangeRecord>, pid: PersonId, acId: string) {
    forall i :: 0 <= i < |recs| ==>
      recs[i].personId == pid && recs[i].acContactId == acId && recs[i].source == WebhookSource
  }

  function AsChange(rec: ChangeRecord): Change {
    Change(rec.field, rec.oldValue, rec.newValue)
  }

  /** Every record is a due change: stored value as old, incoming value as new. */
  ghost predicate RecordsDue(recs: seq<ChangeRecord>, person: Person, prof: Profile) {
    forall i :: 0 <= i < |recs| ==> IsDueChange(person, prof, AsChange(recs[i]))
  }

  /** Records follow the comparison order, so no field is recorded twice. */
  ghost predicate RecordsOrdered(recs: seq<ChangeRecord>) {
    forall i, j :: 0 <= i < j < |recs| ==> Rank(recs[i].field) < Rank(recs[j].field)
  }

  /** Some record in `recs` is for field `f`. */
  ghost predicate HasRecordFor(recs: seq<ChangeRecord>, f: Field)
    decreases |recs|
  {
    |recs| > 0 && (recs[0].field == f || HasRecordFor(recs[1..], f))
  }

  /** A record at any position for `f` makes `recs` have a record for `f`. */
  lemma {:induction false} HasRecordForAt(recs: seq<ChangeRecord>, f: Field, i: int)
    requires 0 <= i < |recs| && recs[i].field == f
    ensures HasRecordFor(recs, f)
    decreases |recs|
  {
    if i > 0 {
      HasRecordForAt(recs[1..], f, i - 1);
    }
  }

  /** Every due field has a record. */
  ghost predicate RecordsCover(recs: seq<ChangeRecord>, person: Person, prof: Profile) {
    forall f :: Differs(person, prof, f) ==> HasRecordFor(recs, f)
  }

  /** The `ac_profile_updates` rows for one update: one per due change, in diff
      order, each tagged with the person, the AC contact id and `webhook`. */
  ghost predicate RecordsFor(recs: seq<ChangeRecord>, pid: PersonId, acId: string, person: Person, prof: Profile) {
    && RecordsTagged(recs, pid, acId)
    && RecordsDue(recs, person, prof)
    && RecordsOrdered(recs)
    && RecordsCover(recs, person, prof)
  }

  /** The change records of a list of changes, one per change and in order. */
  function ToRecords(pid: PersonId, acId: string, cs: seq<Change>): seq<ChangeRecord> {
    seq(|cs|, i requires 0 <= i < |cs| => ChangeRecord(pid, acId, cs[i].field, cs[i].oldValue, cs[i].newValue, WebhookSource))
  }

  /** Each record carries its change and is tagged with the person, the AC contact
      id and `webhook`. */
  lemma ToRecordsSpec(pid: PersonId, acId: string, cs: seq<Change>)
    ensures var r := ToRecords(pid, acId, cs);
      && |r| == |cs|
      && (forall i :: 0 <= i < |cs| ==> AsChange(r[i]) == cs[i])
      && RecordsTagged(r, pid, acId)
  {
  }

  /** The value field `f` holds after the update: the incoming one when a change
      is due, the stored one otherwise. */
  function UpdatedValue(person: Person, prof: Profile, f: Field): Option<string> {
    if Differs(person, prof, f) then Some(Incoming(prof, f)) else Stored(person, f)
  }

  /** Applying the diff gives every due field its incoming value and leaves the
      others alone. */
  lemma ApplyDiffEffect(person: Person, prof: Profile)
    ensures var after := ApplyChanges(person, Diff(person, prof));
      forall f :: Stored(after, f) == UpdatedValue(person, prof, f)
  {
    var cs := Diff(person, prof);
    var after := ApplyChanges(person, cs);
    forall f | Differs(person, prof, f)
      ensures Stored(after, f) == Some(Incoming(prof, f))
    {
      HasChangeForIndex(cs, f);
      var i :| 0 <= i < |cs| && cs[i].field == f;
    }
  }

  /** The records of a diff are the change records the update promises. */
  lemma DiffRecords(pid: PersonId, acId: string, person: Person, prof: Profile)
    ensures RecordsFor(ToRecords(pid, acId, Diff(person, prof)), pid, acId, person, prof)
  {
    var cs := Diff(person, prof);
    var recs := ToRecords(pid, acId, cs);
    ToRecordsSpec(pid, acId, cs);
    assert RecordsDue(recs, person, prof) by {
      forall i | 0 <= i < |recs|
        ensures IsDueChange(person, prof, AsChange(recs[i]))
      {
        assert AsChange(recs[i]) == cs[i];
      }
    }
    assert RecordsOrdered(recs) by {
      forall i, j | 0 <= i < j < |recs|
        ensures Rank(recs[i].field) < Rank(recs[j].field)
      {
        assert AsChange(recs[i]) == cs[i] && AsChange(recs[j]) == cs[j];
      }
    }
    assert RecordsCover(recs, person, prof) by {
      forall f | Differs(person, prof, f)
        ensures HasRecordFor(recs, f)
      {
        HasChangeForIndex(cs, f);
        var i :| 0 <= i < |cs| && cs[i].field == f;
        assert AsChange(recs[i]) == cs[i];
        HasRecordForAt(recs, f, i);
      }
    }
  }

  /** The tracked fields do not depend on `ac_last_synced`. */
  lemma StoredIgnoresSync(p: Person, synced: Option<string>)
    ensures forall f :: Stored(p.(acLastSynced := synced), f) == Stored(p, f)
  {
  }

  /** The row after the update: due fields take their incoming values and
      `ac_last_synced` becomes `now`. */
  function UpdatedPerson(person: Person, prof: Profile, now: string): (r: Person)
    ensures forall f :: Stored(r, f) == UpdatedValue(person, prof, f)
    ensures r.acContactId == person.acContactId && r.acProfileSource == person.acProfileSource
    ensures r.acLastSynced == Some(now)
  {
    var after := ApplyChanges(person, Diff(person, prof));
    ApplyDiffEffect(person, prof);
    StoredIgnoresSync(after, Some(now));
    after.(acLastSynced := Some(now))
  }

  /** `update_person_profile`: applies the profile to one person. An unknown
      person fails and changes nothing; a known one succeeds, only its own row
      may change, and change records are only appended. */
  function UpdatePersonProfile(s: Store, pid: PersonId, acId: string, prof: Profile, now: string): (r: (Store, bool))
    ensures r.1 <==> pid in s.persons
    ensures pid !in s.persons ==> r.0 == s
    ensures r.0.log == s.log
    ensures r.0.persons.Keys == s.persons.Keys
    ensures forall k :: k in s.persons && k != pid ==> r.0.persons[k] == s.persons[k]
    ensures |s.updates| <= |r.0.updates| && r.0.updates[..|s.updates|] == s.updates
  {
    if pid !in s.persons then (s, false)
    else
      var person := s.persons[pid];
      var changes := Diff(person, prof);
      if changes == [] then (s, true)
      else
        var records := ToRecords(pid, acId, changes);
        assert (s.updates + records)[..|s.updates|] == s.updates;
        (Store(s.persons[pid := UpdatedPerson(person, prof, now)], s.updates + records, s.log), true)
  }

  /** With nothing due the update is a successful no-op. */
  lemma UpdateWithoutChanges(s: Store, pid: PersonId, acId: string, prof: Profile, now: string)
    requires pid in s.persons
    requires forall f :: !Differs(s.persons[pid], prof, f)
    ensures UpdatePersonProfile(s, pid, acId, prof, now) == (s, true)
  {
  }

  /** The updated row: due fields take their incoming values, every other field
      and both AC link columns keep theirs, and `ac_last_synced` becomes `now`
      exactly when some field changed. */
  lemma UpdateFieldEffect(s: Store, pid: PersonId, acId: string, prof: Profile, now: string)
    requires pid in s.persons
    ensures var before := s.persons[pid];
      var after := UpdatePersonProfile(s, pid, acId, prof, now).0.persons[pid];
      && (forall f :: Stored(after, f) == UpdatedValue(before, prof, f))
      && after.acContactId == before.acContactId
      && after.acProfileSource == before.acProfileSource
      && after.acLastSynced == (if exists f :: Differs(before, prof, f) then Some(now) else before.acLastSynced)
  {
    var before := s.persons[pid];
    if Diff(before, prof) != [] {
      var f := Diff(before, prof)[0].field;
      assert Differs(before, prof, f);
    }
  }

  /** The update never touches an AC id, so it keeps the index unique. */
  lemma UpdateKeepsLinks(s: Store, pid: PersonId, acId: string, prof: Profile, now: string)
    ensures var after := UpdatePersonProfile(s, pid, acId, prof, now).0.persons;
      forall k :: k in s.persons ==> after[k].acContactId == s.persons[k].acContactId
    ensures UniqueAcIds(s.persons) ==> UniqueAcIds(UpdatePersonProfile(s, pid, acId, prof, now).0.persons)
  {
    var after := UpdatePersonProfile(s, pid, acId, prof, now).0.persons;
    if pid in s.persons && Diff(s.persons[pid], prof) != [] {
      assert after == s.persons[pid := UpdatedPerson(s.persons[pid], prof, now)];
    }
    if UniqueAcIds(s.persons) {
      SameLinksKeepUnique(s.persons, after);
    }
  }

  /** The appended records are exactly the change records of the update. */
  lemma UpdateRecords(s: Store, pid: PersonId, acId: string, prof: Profile, now: string)
    requires pid in s.persons
    ensures var s1 := UpdatePersonProfile(s, pid, acId, prof, now).0;
      RecordsFor(s1.updates[|s.updates|..], pid, acId, s.persons[pid], prof)
  {
    var person := s.persons[pid];
    var s1 := UpdatePersonProfile(s, pid, acId, prof, now).0;
    DiffRecords(pid, acId, person, prof);
    if Diff(person, prof) == [] {
      assert s1.updates[|s.updates|..] == [];
    } else {
      assert s1.updates[|s.updates|..] == ToRecords(pid, acId, Diff(person, prof));
    }
  }

  // ---------------------------------------------------------------------------
  // Lemmas

  /** After applying a diff, the same profile has nothing left to change. */
  lemma ApplyThenDiffIsEmpty(person: Person, prof: Profile)
    ensures Diff(ApplyChanges(person, Diff(person, prof)), prof) == []
  {
    var cs := Diff(person, prof);
    var after := ApplyChanges(person, cs);
    forall f
      ensures !Differs(after, prof, f)
    {
      if Differs(person, prof, f) {
        HasChangeForIndex(cs, f);
        var i :| 0 <= i < |cs| && cs[i].field == f;
      }
    }
  }

  /** After an update the same profile has nothing left to change in the row. */
  lemma NothingDueAfterUpdate(s: Store, pid: PersonId, acId: string, prof: Profile, now: string)
    requires pid in s.persons
    ensures forall f :: !Differs(UpdatePersonProfile(s, pid, acId, prof, now).0.persons[pid], prof, f)
  {
    UpdateFieldEffect(s, pid, acId, prof, now);
  }

  /** Idempotence: re-applying a profile right after applying it changes nothing
      and still reports success for a known person. */
  lemma ReapplyIsNoOp(s: Store, pid: PersonId, acId: string, prof: Profile, now: string, later: string)
    ensures var s1 := UpdatePersonProfile(s, pid, acId, prof, now).0;
      UpdatePersonProfile(s1, pid, acId, prof, later) == (s1, pid in s.persons)
  {
    var s1 := UpdatePersonProfile(s, pid, acId, prof, now).0;
    if pid in s.persons {
      forall f
        ensures !Differs(s1.persons[pid], prof, f)
      {
      }
    }
  }

  /** Empty incoming values never overwrite: a field the profile leaves empty
      keeps its stored value. */
  lemma EmptyNeverOverwrites(s: Store, pid: PersonId, acId: string, prof: Profile, now: string, f: Field)
    requires pid in s.persons
    requires Incoming(prof, f) == ""
    ensures Stored(UpdatePersonProfile(s, pid, acId, prof, now).0.persons[pid], f) == Stored(s.persons[pid], f)
  {
  }

  /** The name rule: with both name parts empty no name change is due; otherwise
      the candidate is the stripped `first + " " + last`. */
  lemma NameRule(person: Person, prof: Profile)
    ensures prof.firstName == "" && prof.lastName == "" ==> !Differs(person, prof, Name)
    ensures (prof.firstName != "" || prof.lastName != "") ==>
      (Differs(person, prof, Name) <==>
        var candidate := PyStrip(prof.firstName + " " + prof.lastName);
        candidate != "" && Some(candidate) != person.name)
  {
  }
}

=== FILE: scenarios.dfy ===
/** Lemmas about concrete events against small stores. */
module Scenarios {
  import opened Wrappers
  import opened Text
  import opened Payload
  import opened Profile
  import opened Store
  import opened Reconcile
  import opened Handlers

  /** A person linked to AC contact 42, named John Doe, with email `email`. */
  function LinkedJohn(email: string): Person {
    Person(Some("John Doe"), Some(email), None, None, None, None, None, None, Some("42"), None, None)
  }

  /** An update event for contact 42 carrying an email and a first name only. */
  function RenameEvent(first: string, email: string): Payload {
    Payload("contact_update", Contact(map["id" := "42", "email" := email, "firstName" := first], []), "")
  }

  /** The profile of the rename event: the first name and the email, nothing else. */
  lemma RenameProfile(first: string, email: string)
    requires PyNorm(email) == email
    ensures ExtractProfile(RenameEvent(first, email)) == Profile(first, "", email, "", map[])
    ensures ContactId(RenameEvent(first, email)) == "42"
  {
    var p := RenameEvent(first, email);
    assert Get(p.contact.attrs, "email") == email;
    assert CustomFields([]) == map[];
  }

  /** Against John Doe the rename profile offers a new name and nothing else. */
  lemma RenameDue(first: string, email: string)
    requires |first| > 0 && !IsPyWhitespace(first[0]) && !IsPyWhitespace(first[|first| - 1])
    requires first != "John Doe"
    ensures var prof := Profile(first, "", email, "", map[]);
      && Differs(LinkedJohn(email), prof, Name) && Incoming(prof, Name) == first
      && forall f :: f != Name ==> !Differs(LinkedJohn(email), prof, f)
  {
    var prof := Profile(first, "", email, "", map[]);
    assert prof.firstName + " " + prof.lastName == first + [' '];
    StripTrailing(first, ' ', IsPyWhitespace);
  }

  /** Against John Doe the rename profile is due for the name only. */
  lemma RenameDiff(first: string, email: string)
    requires |first| > 0 && !IsPyWhitespace(first[0]) && !IsPyWhitespace(first[|first| - 1])
    requires first != "John Doe"
    ensures Diff(LinkedJohn(email), Profile(first, "", email, "", map[])) == [Change(Name, Some("John Doe"), first)]
  {
    var john := LinkedJohn(email);
    var prof := Profile(first, "", email, "", map[]);
    RenameDue(first, email);
    var cs := Diff(john, prof);
    assert HasChangeFor(cs, Name);
    HasChangeForIndex(cs, Name);
    assert forall i :: 0 <= i < |cs| ==> cs[i].field == Name;
    OrderedFieldsDistinct(cs);
    assert cs[0].field == cs[|cs| - 1].field;
  }

  /** Applying the rename profile to John Doe changes the name and writes one record. */
  lemma RenameApplied(first: string, email: string, now: string)
    requires |first| > 0 && !IsPyWhitespace(first[0]) && !IsPyWhitespace(first[|first| - 1])
    requires first != "John Doe"
    ensures var u := UpdatePersonProfile(Store(map[1 := LinkedJohn(email)], [], []), 1, "42", Profile(first, "", email, "", map[]), now);
      && u.1
      && u.0.persons[1].name == Some(first)
      && u.0.updates == [ChangeRecord(1, "42", Name, Some("John Doe"), first, WebhookSource)]
      && u.0.log == []
  {
    var john := LinkedJohn(email);
    var prof := Profile(first, "", email, "", map[]);
    RenameDiff(first, email);
    var cs := [Change(Name, Some("John Doe"), first)];
    assert ToRecords(1, "42", cs) == [ChangeRecord(1, "42", Name, Some("John Doe"), first, WebhookSource)];
    assert Stored(UpdatedPerson(john, prof, now), Name) == Some(first);
  }

  /** The rename event reaches John Doe through his AC id. */
  lemma RenameResolved(first: string, email: string, now: string)
    requires PyNorm(email) == email
    ensures var s := Store(map[1 := LinkedJohn(email)], [], []);
      var p := RenameEvent(first, email);
      HandleUpdate(s, p, now) ==
        (AppendLog(UpdatePersonProfile(s, 1, "42", Profile(first, "", email, "", map[]), now).0,
                   LogEvent(UpdateType, p, now, true, Some(1), None)),
         Response(true, Some(1), "42", UpdatedMessage))
  {
    RenameProfile(first, email);
    UpdateOfLinkedPerson(Store(map[1 := LinkedJohn(email)], [], []), RenameEvent(first, email), now, 1);
  }

  /** Renaming through an update event: the only due change is the name. */
  lemma RenameOnly(first: string, email: string, now: string)
    requires |first| > 0 && !IsPyWhitespace(first[0]) && !IsPyWhitespace(first[|first| - 1])
    requires first != "John Doe"
    requires PyNorm(email) == email
    ensures var r := HandleUpdate(Store(map[1 := LinkedJohn(email)], [], []), RenameEvent(first, email), now);
      && r.1 == Response(true, Some(1), "42", UpdatedMessage)
      && r.0.persons[1].name == Some(first)
      && r.0.updates == [ChangeRecord(1, "42", Name, Some("John Doe"), first, WebhookSource)]
      && |r.0.log| == 1 && r.0.log[0].processed
  {
    RenameResolved(first, email, now);
    RenameApplied(first, email, now);
  }

  lemma ExampleEmailIsNormal()
    ensures PyNorm("a@x.com") == "a@x.com"
  {
    var e := "a@x.com";
    assert Lower(e) == e by {
      LowerOfNoUpper(e);
    }
    assert PyStrip(e) == e by {
      StripOfBare(e, IsPyWhitespace);
    }
  }

  /** The update event for contact 42 with first name Jane and email a@x.com,
      dispatched against John Doe linked to 42: success, the name becomes Jane
      and one change record from John Doe to Jane is written. */
  lemma UpdateRenamesJohnToJane(now: string)
    ensures var r := Dispatch(Store(map[1 := LinkedJohn("a@x.com")], [], []), RenameEvent("Jane", "a@x.com"), now, true);
      && r.Success?
      && r.value.1 == Response(true, Some(1), "42", UpdatedMessage)
      && r.value.0.persons[1].name == Some("Jane")
      && r.value.0.updates == [ChangeRecord(1, "42", Name, Some("John Doe"), "Jane", WebhookSource)]
  {
    ExampleEmailIsNormal();
    NormalizeTypeRoutes("contact_update");
    RenameOnly("Jane", "a@x.com", now);
  }

  /** An add event for contact 99 against a store that knows nobody fails, says
      the contact waits for the next export, and logs one unprocessed event. */
  lemma AddOfUnknownContactWaits(email: string, now: string)
    ensures var p := Payload("contact_add", Contact(map["id" := "99", "email" := email], []), "");
      var r := Dispatch(Store(map[], [], []), p, now, true);
      && r.Success?
      && r.value.1 == Response(false, None, "99", NewContactMessage)
      && r.value.0.persons == map[] && r.value.0.updates == []
      && |r.value.0.log| == 1
      && !r.value.0.log[0].processed && r.value.0.log[0].error == Some(PendingExportError)
  {
    NormalizeTypeRoutes("contact_add");
  }

  /** A delete event, in either spelling, for any contact and against any store
      changes no person and no change record, logs one processed event and
      succeeds. */
  lemma DeleteOnlyLogs(s: Store, p: Payload, now: string)
    requires p.kind == "delete" || p.kind == DeleteType
    ensures var r := Dispatch(s, p, now, true);
      && r.Success?
      && r.value.0.persons == s.persons && r.value.0.updates == s.updates
      && |r.value.0.log| == |s.log| + 1 && r.value.0.log[|s.log|].processed
      && r.value.1.success
  {
    NormalizeTypeRoutes(p.kind);
  }

  /** The as-written update resolution re-links an email match that is already
      linked to another AC id; the guarded resolution keeps the old link. */
  lemma AsWrittenRelinks(email: string, held: string, acId: string)
    requires EmailMatches(Some(email), email)
    requires held != "" && acId != held
    ensures var persons := map[1 := Person(None, Some(email), None, None, None, None, None, None, Some(held), None, None)];
      && ResolveAsWritten(persons, acId, email).1[1].acContactId == Some(acId)
      && ResolveForUpdate(persons, acId, email).1[1].acContactId == Some(held)
  {
    var persons := map[1 := Person(None, Some(email), None, None, None, None, None, None, Some(held), None, None)];
    assert FindByAcId(persons, acId).None?;
    FindByEmailLeast(persons, email, 1);
    ResolveAsWrittenOverridesLink(persons, acId, email);
  }

  /** Person 1, linked to AC contact 7, with email a@x.com. */
  function RelinkStore(): Store {
    Store(map[1 := Person(None, Some("a@x.com"), None, None, None, None, None, None, Some("7"), None, None)], [], [])
  }

  /** An update event for AC contact 8 carrying the email a@x.com. */
  function RelinkEvent(): Payload {
    Payload("contact_update", Contact(map["id" := "8", "email" := "a@x.com"], []), "")
  }

  /** Nobody holds AC id 8, and the email fallback finds person 1, who is linked. */
  lemma RelinkEventFindsLinkedPerson()
    ensures ContactId(RelinkEvent()) == "8" && EventEmail(RelinkEvent()) == "a@x.com"
    ensures FindByEmail(RelinkStore().persons, "a@x.com") == Some(1)
    ensures RelinksByEmail(RelinkStore().persons, ContactId(RelinkEvent()), EventEmail(RelinkEvent()))
  {
    var persons := RelinkStore().persons;
    var attrs := RelinkEvent().contact.attrs;
    assert Get(attrs, "id") == "8" && Get(attrs, "email") == "a@x.com";
    ExampleEmailIsNormal();
    NormalFormSqlNorm("a@x.com");
    assert FindByAcId(persons, "8").None?;
    FindByEmailLeast(persons, "a@x.com", 1);
  }

  /** The input that shows it: an update event for AC contact 8 whose email
      matches person 1, who is linked to AC contact 7, re-links person 1 to 8
      under the handler as written, although the email fallback is meant to
      leave an existing link alone, as the guarded handler does. */
  lemma AsWrittenRelinksPerson(now: string)
    ensures HandleUpdateAsWritten(RelinkStore(), RelinkEvent(), now).0.persons[1].acContactId == Some("8")
    ensures HandleUpdate(RelinkStore(), RelinkEvent(), now).0.persons[1].acContactId == Some("7")
  {
    RelinkEventFindsLinkedPerson();
    UpdateAsWrittenDiffers(RelinkStore(), RelinkEvent(), now);
  }
}

=== FILE: store.dfy ===
/** The local store the receiver reconciles against: the `unified_persons`
    table as a map from `person_id` to a person row, plus the append-only
    `ac_profile_updates` and `ac_webhook_log` tables as sequences. Nullable text
    columns are `Option<string>`, with `None` for SQL NULL. */
module Store {
  import opened Wrappers
  import opened Text
  import opened Payload
  import opened Profile

  type PersonId = nat

  /** A `unified_persons` row. */
  datatype Person = Person(
    name: Option<string>,
    primaryEmail: Option<string>,
    phone: Option<string>,
    company: Option<string>,
    position: Option<string>,
    industry: Option<string>,
    location: Option<string>,
    professionalSummary: Option<string>,
    acContactId: Option<string>,
    acLastSynced: Option<string>,
    acProfileSource: Option<string>)

  /** The stored value of a tracked field. */
  function Stored(p: Person, f: Field): Option<string> {
    match f
    case Name => p.name
    case PrimaryEmail => p.primaryEmail
    case Phone => p.phone
    case Company => p.company
    case Position => p.position
    case Industry => p.industry
    case Location => p.location
    case ProfessionalSummary => p.professionalSummary
  }

  /** The row with tracked field `f` set to `v`; nothing else changes. */
  function WithField(p: Person, f: Field, v: string): (r: Person)
    ensures Stored(r, f) == Some(v)
    ensures forall g :: g != f ==> Stored(r, g) == Stored(p, g)
    ensures r.acContactId == p.acContactId && r.acLastSynced == p.acLastSynced
    ensures r.acProfileSource == p.acProfileSource
  {
    match f
    case Name => p.(name := Some(v))
    case PrimaryEmail => p.(primaryEmail := Some(v))
    case Phone => p.(phone := Some(v))
    case Company => p.(company := Some(v))
    case Position => p.(position := Some(v))
    case Industry => p.(industry := Some(v))
    case Location => p.(location := Some(v))
    case ProfessionalSummary => p.(professionalSummary := Some(v))
  }

  /** An `ac_profile_updates` row. */
  datatype ChangeRecord = ChangeRecord(
    personId: PersonId,
    acContactId: string,
    field: Field,
    oldValue: Option<string>,
    newValue: string,
    source: string)

  /** An `ac_webhook_log` row; the payload is kept as the value it serialises. */
  datatype LogEntry = LogEntry(
    webhookType: string,
    acContactId: string,
    email: string,
    receivedAt: string,
    payload: Payload,
    processed: bool,
    personId: Option<PersonId>,
    error: Option<string>)

  datatype Store = Store(
    persons: map<PersonId, Person>,
    updates: seq<ChangeRecord>,
    log: seq<LogEntry>)

  /** The partial unique index on `ac_contact_id`: at most one person holds each
      non-null AC contact id. */
  ghost predicate UniqueAcIds(persons: map<PersonId, Person>) {
    forall a, b :: a in persons && b in persons && a != b && persons[a].acContactId.Some? ==>
      persons[a].acContactId != persons[b].acContactId
  }

  // ---------------------------------------------------------------------------
  // Lookups

  /** The least id in `s`, searching upward from `n` when no id below `n` is in `s`;
      `bound` is an id of `s` that ends the search. */
  function LeastFrom(s: set<PersonId>, n: PersonId, bound: PersonId): (m: PersonId)
    requires bound in s && n <= bound
    requires forall k :: k in s ==> n <= k
    ensures m in s && forall k :: k in s ==> m <= k
    decreases bound - n
  {
    if n in s then n else LeastFrom(s, n + 1, bound)
  }

  /** The least id in a non-empty set: the row a `LIMIT 1` query without
      `ORDER BY` returns when SQLite scans the table in `person_id` order. */
  function MinId(s: set<PersonId>): (m: PersonId)
    requires s != {}
    ensures m in s && forall k :: k in s ==> m <= k
  {
    var x :| x in s;
    LeastFrom(s, 0, x)
  }

  /** The first person, in `person_id` order, whose row satisfies `matches`. */
  function FirstMatch(persons: map<PersonId, Person>, matches: Person -> bool): (r: Option<PersonId>)
    ensures r.None? <==> forall k :: k in persons ==> !matches(persons[k])
    ensures r.Some? ==> r.value in persons && matches(persons[r.value])
    ensures r.Some? ==> forall k :: k in persons && matches(persons[k]) ==> r.value <= k
  {
    var hits := set k | k in persons && matches(persons[k]);
    assert forall k :: k in persons && matches(persons[k]) ==> k in hits;
    if hits == {} then None else Some(MinId(hits))
  }

  /** The first person matching `WHERE ac_contact_id = ?`. */
  function FindByAcId(persons: map<PersonId, Person>, acId: string): (r: Option<PersonId>)
    ensures r.None? <==> forall k :: k in persons ==> persons[k].acContactId != Some(acId)
    ensures r.Some? ==> r.value in persons && persons[r.value].acContactId == Some(acId)
    ensures r.Some? ==> forall k :: k in persons && persons[k].acContactId == Some(acId) ==> r.value <= k
  {
    FirstMatch(persons, (p: Person) => p.acContactId == Some(acId))
  }

  /** The lookup's match condition: `LOWER(TRIM(primary_email)) = email.lower().strip()`,
      which a NULL email never meets. */
  predicate EmailMatches(stored: Option<string>, email: string) {
    stored.Some? && SqlNorm(stored.value) == PyNorm(email)
  }

  /** The first person matching the email lookup. */
  function FindByEmail(persons: map<PersonId, Person>, email: string): (r: Option<PersonId>)
    ensures r.None? <==> forall k :: k in persons ==> !EmailMatches(persons[k].primaryEmail, email)
    ensures r.Some? ==> r.value in persons && EmailMatches(persons[r.value].primaryEmail, email)
    ensures r.Some? ==> forall k :: k in persons && EmailMatches(persons[k].primaryEmail, email) ==> r.value <= k
  {
    FirstMatch(persons, EmailMatcher(email))
  }

  function EmailMatcher(email: string): Person -> bool {
    (p: Person) => EmailMatches(p.primaryEmail, email)
  }

  /** An event's email matches a stored copy of itself. */
  lemma EventEmailMatchesItself(p: Payload)
    ensures EmailMatches(Some(EventEmail(p)), EventEmail(p))
  {
    EventEmailIsNormal(p);
    NormalFormSqlNorm(EventEmail(p));
  }

  /** The first match stays `k` when no other row changes and `k` still matches. */
  lemma FirstMatchStable(a: map<PersonId, Person>, b: map<PersonId, Person>, matches: Person -> bool, k: PersonId)
    requires FirstMatch(a, matches) == Some(k)
    requires a.Keys == b.Keys
    requires forall j :: j in a && j != k ==> b[j] == a[j]
    requires matches(b[k])
    ensures FirstMatch(b, matches) == Some(k)
  {
    assert forall j :: j in b && j != k && matches(b[j]) ==> matches(a[j]);
  }

  /** The first match is the least id whose row matches. */
  lemma FirstMatchLeast(persons: map<PersonId, Person>, matches: Person -> bool, k: PersonId)
    requires k in persons && matches(persons[k])
    requires forall j :: j in persons && j < k ==> !matches(persons[j])
    ensures FirstMatch(persons, matches) == Some(k)
  {
  }

  /** The email lookup finds the least id whose row matches. */
  lemma FindByEmailLeast(persons: map<PersonId, Person>, email: string, k: PersonId)
    requires k in persons && EmailMatches(persons[k].primaryEmail, email)
    requires forall j :: j in persons && j < k ==> !EmailMatches(persons[j].primaryEmail, email)
    ensures FindByEmail(persons, email) == Some(k)
  {
    FirstMatchLeast(persons, EmailMatcher(email), k);
  }

  /** The email lookup keeps finding `k` when no other row changes and `k` still
      matches. */
  lemma FindByEmailStable(a: map<PersonId, Person>, b: map<PersonId, Person>, email: string, k: PersonId)
    requires FindByEmail(a, email) == Some(k)
    requires a.Keys == b.Keys
    requires forall j :: j in a && j != k ==> b[j] == a[j]
    requires EmailMatches(b[k].primaryEmail, email)
    ensures FindByEmail(b, email) == Some(k)
  {
    FirstMatchStable(a, b, EmailMatcher(email), k);
  }

  /** Under the unique index an AC id lookup has at most one candidate, so the
      person it returns is whoever holds the id. */
  lemma FindByAcIdUnique(persons: map<PersonId, Person>, acId: string, k: PersonId)
    requires UniqueAcIds(persons)
    requires k in persons && persons[k].acContactId == Some(acId)
    ensures FindByAcId(persons, acId) == Some(k)
  {
  }

  /** A stored email whose surrounding whitespace is spaces only is found exactly
      when its Python normalisation equals the event's. */
  lemma EmailMatchesWhenSpaceTrimmed(stored: string, email: string)
    requires SqlTrim(stored) == PyStrip(stored)
    ensures EmailMatches(Some(stored), email) <==> PyNorm(stored) == PyNorm(email)
  {
    SqlNormAgreesWithPyNorm(stored);
  }

  /** SQLite's `TRIM` removes spaces only, so a stored email that ends in a tab
      is not found by an event whose email normalises to the same text. */
  lemma EmailLookupIgnoresTabs(e: string)
    requires PyNorm(e) == e && |e| > 0
    ensures PyNorm(e + "\t") == PyNorm(e)
    ensures !EmailMatches(Some(e + "\t"), e)
  {
    var s := e + "\t";
    PyNormIsLowerCase(e);
    assert NoUpper(s);
    LowerOfNoUpper(s);
    TrailingTab(e);
    assert |SqlNorm(s)| != |PyNorm(e)|;
  }

  // ---------------------------------------------------------------------------
  // Linking

  const LinkedSource: string := "activecampaign"

  /** `UPDATE unified_persons SET ac_contact_id = ?, ac_profile_source = 'activecampaign'`
      for one person. */
  function Link(persons: map<PersonId, Person>, k: PersonId, acId: string): (r: map<PersonId, Person>)
    requires k in persons
    ensures r.Keys == persons.Keys
    ensures r[k].acContactId == Some(acId) && r[k].acProfileSource == Some(LinkedSource)
    ensures forall f :: Stored(r[k], f) == Stored(persons[k], f)
    ensures r[k].acLastSynced == persons[k].acLastSynced
    ensures forall j :: j in persons && j != k ==> r[j] == persons[j]
  {
    persons[k := persons[k].(acContactId := Some(acId), acProfileSource := Some(LinkedSource))]
  }

  /** Uniqueness depends only on who holds which AC id. */
  lemma SameLinksKeepUnique(a: map<PersonId, Person>, b: map<PersonId, Person>)
    requires UniqueAcIds(a)
    requires a.Keys == b.Keys
    requires forall k :: k in a ==> b[k].acContactId == a[k].acContactId
    ensures UniqueAcIds(b)
  {
  }

  /** Linking a person to an id nobody else holds keeps the index unique. */
  lemma LinkPreservesUnique(persons: map<PersonId, Person>, k: PersonId, acId: string)
    requires UniqueAcIds(persons)
    requires k in persons
    requires forall j :: j in persons && j != k ==> persons[j].acContactId != Some(acId)
    ensures UniqueAcIds(Link(persons, k, acId))
  {
  }
}

=== FILE: text.dfy ===
/** String primitives the receiver relies on: Python's `str.lower()`,
    `str.strip()`, `in`, `startswith` and `replace(pat, '')`, and SQLite's
    `LOWER()` and one-argument `TRIM()`. */
module Text {

  /** The characters Python's `str.isspace()` accepts, which are exactly the ones
      a bare `str.strip()` removes from either end. */
  predicate IsPyWhitespace(c: char) {
    || ('\t' <= c <= '\r')
    || ('\U{1C}' <= c <= '\U{1F}')
    || c == ' '
    || c == '\U{85}'
    || c == '\U{A0}'
    || c == '\U{1680}'
    || ('\U{2000}' <= c <= '\U{200A}')
    || c == '\U{2028}'
    || c == '\U{2029}'
    || c == '\U{202F}'
    || c == '\U{205F}'
    || c == '\U{3000}'
  }

  /** SQLite's `TRIM(x)` with no second argument removes the space character only. */
  predicate IsSqlSpace(c: char) {
    c == ' '
  }

  /** Drops the longest prefix of characters satisfying `drop`. */
  function TrimLeft(s: string, drop: char -> bool): string
    decreases |s|
  {
    if |s| > 0 && drop(s[0]) then TrimLeft(s[1..], drop) else s
  }

  /** Drops the longest suffix of characters satisfying `drop`. */
  function TrimRight(s: string, drop: char -> bool): string
    decreases |s|
  {
    if |s| > 0 && drop(s[|s| - 1]) then TrimRight(s[..|s| - 1], drop) else s
  }

  /** Drops characters satisfying `drop` from both ends. */
  function Strip(s: string, drop: char -> bool): string {
    TrimRight(TrimLeft(s, drop), drop)
  }

  /** Python's `s.strip()`. */
  function PyStrip(s: string): string {
    Strip(s, IsPyWhitespace)
  }

  /** SQLite's `TRIM(s)`. */
  function SqlTrim(s: string): string {
    Strip(s, IsSqlSpace)
  }

  function LowerChar(c: char): (r: char)
    ensures !('A' <= r <= 'Z')
    ensures !('A' <= c <= 'Z') ==> r == c
  {
    if 'A' <= c <= 'Z' then (c as int - 'A' as int + 'a' as int) as char else c
  }

  /** ASCII lower-casing: SQLite's `LOWER()` exactly, and Python's `str.lower()`
      on ASCII text. */
  function Lower(s: string): string
    decreases |s|
  {
    if |s| == 0 then [] else [LowerChar(s[0])] + Lower(s[1..])
  }

  /** The normalisation the receiver applies to an incoming email:
      `email.lower().strip()`. */
  function PyNorm(s: string): string {
    PyStrip(Lower(s))
  }

  /** The normalisation the SQL lookup applies to a stored email:
      `LOWER(TRIM(primary_email))`. */
  function SqlNorm(s: string): string {
    Lower(SqlTrim(s))
  }

  /** `sub` occurs in `s` starting at index `i`. */
  predicate OccursAt(s: string, sub: string, i: int) {
    0 <= i && i + |sub| <= |s| && s[i..i + |sub|] == sub
  }

  /** Python's `sub in s`. */
  predicate Contains(s: string, sub: string) {
    exists i | 0 <= i <= |s| - |sub| :: OccursAt(s, sub, i)
  }

  /** Python's `s.startswith(p)`. */
  predicate StartsWith(s: string, p: string) {
    |p| <= |s| && s[..|p|] == p
  }

  /** Python's `s.replace(pat, '')`: occurrences are found left to right and do
      not overlap. */
  function RemoveAll(s: string, pat: string): (r: string)
    requires |pat| > 0
    ensures |r| <= |s|
    decreases |s|
  {
    if |s| < |pat| then s
    else if s[..|pat|] == pat then RemoveAll(s[|pat|..], pat)
    else [s[0]] + RemoveAll(s[1..], pat)
  }

  // ---------------------------------------------------------------------------
  // Lemmas

  /** `TrimLeft` removes a prefix of dropped characters and stops at the first
      kept one. */
  lemma {:induction false} TrimLeftSpec(s: string, drop: char -> bool)
    ensures var r := TrimLeft(s, drop);
      && |r| <= |s| && r == s[|s| - |r|..]
      && (forall k :: 0 <= k < |s| - |r| ==> drop(s[k]))
      && (|r| == 0 || !drop(r[0]))
    decreases |s|
  {
    if |s| > 0 && drop(s[0]) {
      var t := s[1..];
      TrimLeftSpec(t, drop);
      var r := TrimLeft(s, drop);
      assert t[|t| - |r|..] == s[|s| - |r|..];
      forall k | 0 <= k < |s| - |r|
        ensures drop(s[k])
      {
        if k > 0 {
          assert s[k] == t[k - 1];
        }
      }
    }
  }

  /** `TrimRight` removes a suffix of dropped characters and stops at the last
      kept one. */
  lemma {:induction false} TrimRightSpec(s: string, drop: char -> bool)
    ensures var r := TrimRight(s, drop);
      && |r| <= |s| && r == s[..|r|]
      && (forall k :: |r| <= k < |s| ==> drop(s[k]))
      && (|r| == 0 || !drop(r[|r| - 1]))
    decreases |s|
  {
    if |s| > 0 && drop(s[|s| - 1]) {
      var t := s[..|s| - 1];
      TrimRightSpec(t, drop);
      var r := TrimRight(s, drop);
      assert t[..|r|] == s[..|r|];
      forall k | |r| <= k < |s|
        ensures drop(s[k])
      {
        if k < |s| - 1 {
          assert s[k] == t[k];
        }
      }
    }
  }

  /** Stripping keeps the slice of `s` that starts where `TrimLeft` stops. */
  lemma StripSlice(s: string, drop: char -> bool)
    ensures var r := Strip(s, drop); var i := |s| - |TrimLeft(s, drop)|;
      0 <= i && i + |r| <= |s| && r == s[i..i + |r|]
  {
    TrimLeftSpec(s, drop);
    TrimRightSpec(TrimLeft(s, drop), drop);
  }

  /** Everything stripping cuts off on either side is a dropped character. */
  lemma StripCutsDropped(s: string, drop: char -> bool)
    ensures var r := Strip(s, drop); var i := |s| - |TrimLeft(s, drop)|;
      && (forall k :: 0 <= k < i ==> drop(s[k]))
      && (forall k :: 0 <= i + |r| <= k < |s| ==> drop(s[k]))
  {
    var t := TrimLeft(s, drop);
    var r := TrimRight(t, drop);
    var i := |s| - |t|;
    TrimLeftSpec(s, drop);
    TrimRightSpec(t, drop);
    forall k | i + |r| <= k < |s|
      ensures drop(s[k])
    {
      assert s[k] == t[k - i];
    }
  }

  /** The stripped text neither starts nor ends with a dropped character. */
  lemma StripEnds(s: string, drop: char -> bool)
    ensures var r := Strip(s, drop); |r| == 0 || (!drop(r[0]) && !drop(r[|r| - 1]))
  {
    var t := TrimLeft(s, drop);
    var r := TrimRight(t, drop);
    TrimLeftSpec(s, drop);
    TrimRightSpec(t, drop);
    if |r| > 0 {
      assert r[0] == t[0];
    }
  }

  /** Lower-casing keeps the length and lower-cases each character in place. */
  lemma {:induction false} LowerSpec(s: string)
    ensures |Lower(s)| == |s|
    ensures forall i :: 0 <= i < |s| ==> Lower(s)[i] == LowerChar(s[i])
    decreases |s|
  {
    if |s| > 0 {
      LowerSpec(s[1..]);
    }
  }

  lemma LowerOfNoUpper(s: string)
    requires NoUpper(s)
    ensures Lower(s) == s
  {
    LowerSpec(s);
  }

  lemma LowerHasNoUpper(s: string)
    ensures NoUpper(Lower(s))
  {
    LowerSpec(s);
  }

  lemma StripKeepsNoUpper(s: string, drop: char -> bool)
    requires NoUpper(s)
    ensures NoUpper(Strip(s, drop))
  {
    var t := TrimLeft(s, drop);
    var r := TrimRight(t, drop);
    TrimLeftSpec(s, drop);
    TrimRightSpec(t, drop);
    forall k | 0 <= k < |r|
      ensures !('A' <= r[k] <= 'Z')
    {
      assert r[k] == t[k];
      assert t[k] == s[|s| - |t| + k];
    }
  }

  lemma {:induction false} TrimLeftLower(s: string, drop: char -> bool)
    requires forall c :: drop(LowerChar(c)) == drop(c)
    ensures TrimLeft(Lower(s), drop) == Lower(TrimLeft(s, drop))
    decreases |s|
  {
    if |s| > 0 && drop(s[0]) {
      assert Lower(s)[1..] == Lower(s[1..]);
      TrimLeftLower(s[1..], drop);
    }
  }

  lemma {:induction false} TrimRightLower(s: string, drop: char -> bool)
    requires forall c :: drop(LowerChar(c)) == drop(c)
    ensures TrimRight(Lower(s), drop) == Lower(TrimRight(s, drop))
    decreases |s|
  {
    LowerSpec(s);
    if |s| > 0 && drop(s[|s| - 1]) {
      LowerSpec(s[..|s| - 1]);
      assert Lower(s)[..|s| - 1] == Lower(s[..|s| - 1]);
      TrimRightLower(s[..|s| - 1], drop);
    }
  }

  /** Lower-casing and stripping commute for any set of stripped characters that
      lower-casing leaves alone, which covers both Python's and SQLite's. */
  lemma StripLowerCommute(s: string, drop: char -> bool)
    requires forall c :: drop(LowerChar(c)) == drop(c)
    ensures Strip(Lower(s), drop) == Lower(Strip(s, drop))
  {
    TrimLeftLower(s, drop);
    TrimRightLower(TrimLeft(s, drop), drop);
  }

  lemma LowerIdempotent(s: string)
    ensures Lower(Lower(s)) == Lower(s)
  {
    LowerHasNoUpper(s);
    LowerOfNoUpper(Lower(s));
  }

  /** Stripping an already stripped string changes nothing. */
  lemma StripIdempotent(s: string, drop: char -> bool)
    ensures Strip(Strip(s, drop), drop) == Strip(s, drop)
  {
    StripEnds(s, drop);
    StripOfBare(Strip(s, drop), drop);
  }

  /** Lower-casing never turns a character into whitespace or back. */
  lemma LowerKeepsWhitespace()
    ensures forall c :: IsPyWhitespace(LowerChar(c)) == IsPyWhitespace(c)
    ensures forall c :: IsSqlSpace(LowerChar(c)) == IsSqlSpace(c)
  {
  }

  /** The incoming-email normalisation is idempotent, so normalising again inside
      the email lookup (as the receiver does) has no further effect. */
  lemma PyNormIdempotent(s: string)
    ensures PyNorm(PyNorm(s)) == PyNorm(s)
  {
    var l := Lower(s);
    var p := PyStrip(l);
    LowerHasNoUpper(s);
    StripKeepsNoUpper(l, IsPyWhitespace);
    LowerOfNoUpper(p);
    StripIdempotent(l, IsPyWhitespace);
  }

  /** `s` holds no ASCII upper-case letter. */
  predicate NoUpper(s: string) {
    forall k :: 0 <= k < |s| ==> !('A' <= s[k] <= 'Z')
  }

  /** A normalised email holds no upper-case letter and starts and ends with a
      non-whitespace character. */
  lemma PyNormIsLowerCase(s: string)
    ensures NoUpper(PyNorm(s))
    ensures |PyNorm(s)| == 0
      || (!IsPyWhitespace(PyNorm(s)[0]) && !IsPyWhitespace(PyNorm(s)[|PyNorm(s)| - 1]))
  {
    LowerHasNoUpper(s);
    StripKeepsNoUpper(Lower(s), IsPyWhitespace);
    StripEnds(Lower(s), IsPyWhitespace);
  }

  /** Text that neither starts nor ends with a dropped character strips to itself. */
  lemma StripOfBare(e: string, drop: char -> bool)
    requires |e| == 0 || (!drop(e[0]) && !drop(e[|e| - 1]))
    ensures Strip(e, drop) == e
  {
    assert TrimLeft(e, drop) == e;
    assert TrimRight(e, drop) == e;
  }

  /** Stripping removes one dropped character appended to such text. */
  lemma StripTrailing(e: string, c: char, drop: char -> bool)
    requires |e| > 0 && !drop(e[0]) && !drop(e[|e| - 1]) && drop(c)
    ensures Strip(e + [c], drop) == e
  {
    var s := e + [c];
    assert s[..|e|] == e;
    assert TrimLeft(s, drop) == s;
    assert TrimRight(s, drop) == TrimRight(e, drop);
    assert TrimRight(e, drop) == e;
  }

  /** For text without surrounding whitespace, Python's `strip()` removes an
      appended tab and SQLite's `TRIM()` keeps it. */
  lemma TrailingTab(e: string)
    requires |e| > 0 && !IsPyWhitespace(e[0]) && !IsPyWhitespace(e[|e| - 1])
    ensures PyStrip(e + "\t") == e
    ensures SqlTrim(e + "\t") == e + "\t"
  {
    assert e + "\t" == e + ['\t'];
    StripTrailing(e, '\t', IsPyWhitespace);
    StripOfBare(e + "\t", IsSqlSpace);
  }

  /** Text already in the receiver's normal form is also in SQLite's: `LOWER(TRIM(e))`
      leaves it unchanged. */
  lemma NormalFormSqlNorm(e: string)
    requires PyNorm(e) == e
    ensures SqlNorm(e) == e
  {
    PyNormIsLowerCase(e);
    StripOfBare(e, IsSqlSpace);
    LowerOfNoUpper(e);
  }

  /** When a stored email carries no surrounding whitespace other than spaces,
      SQLite's `LOWER(TRIM(x))` agrees with Python's `x.lower().strip()`. */
  lemma SqlNormAgreesWithPyNorm(s: string)
    requires SqlTrim(s) == PyStrip(s)
    ensures SqlNorm(s) == PyNorm(s)
  {
    LowerKeepsWhitespace();
    StripLowerCommute(s, IsPyWhitespace);
  }

  lemma {:induction false} RemoveAllPrefix(p: string, s: string)
    requires |p| > 0
    ensures RemoveAll(p + s, p) == RemoveAll(s, p)
  {
    assert (p + s)[..|p|] == p;
    assert (p + s)[|p|..] == s;
  }

  /** Removing a single character leaves no occurrence of it, and leaves a
      string that holds none unchanged. */
  lemma {:induction false} RemoveCharKeepsOthers(s: string, c: char)
    ensures forall k :: 0 <= k < |RemoveAll(s, [c])| ==> RemoveAll(s, [c])[k] != c
    ensures (forall k :: 0 <= k < |s| ==> s[k] != c) ==> RemoveAll(s, [c]) == s
    decreases |s|
  {
    if |s| >= 1 {
      RemoveCharKeepsOthers(s[1..], c);
      if s[..1] != [c] {
        assert s == [s[0]] + s[1..];
      }
    }
  }

  /** `replace` leaves a string without the pattern unchanged. */
  lemma {:induction false} RemoveAllAbsent(s: string, pat: string)
    requires |pat| > 0
    requires !Contains(s, pat)
    ensures RemoveAll(s, pat) == s
    decreases |s|
  {
    if |s| >= |pat| {
      assert !OccursAt(s, pat, 0);
      assert s[..|pat|] == s[0..0 + |pat|];
      forall i | OccursAt(s[1..], pat, i)
        ensures OccursAt(s, pat, i + 1)
      {
        assert s[1..][i..i + |pat|] == s[i + 1..i + 1 + |pat|];
      }
      RemoveAllAbsent(s[1..], pat);
      assert s == [s[0]] + s[1..];
    }
  }

  /** Removing `c` from `s + [c]` gives `s` when `s` holds no `c`. */
  lemma {:induction false} RemoveTrailingChar(s: string, c: char)
    requires forall k :: 0 <= k < |s| ==> s[k] != c
    ensures RemoveAll(s + [c], [c]) == s
    decreases |s|
  {
    if |s| == 0 {
      assert [c][1..] == [];
    } else {
      assert (s + [c])[..1] == [s[0]];
      assert (s + [c])[1..] == s[1..] + [c];
      RemoveTrailingChar(s[1..], c);
      assert s == [s[0]] + s[1..];
    }
  }
}

=== FILE: wrappers.dfy ===
/** Failure-compatible wrappers used throughout the model: `Option` stands for a
    value that may be absent (a SQL NULL, a missing dictionary key, a lookup that
    found nothing) and `Result` for an operation that may be rejected. */
module Wrappers {

  datatype Option<+T> = None | Some(value: T)

  datatype Result<+R, +E> = Success(value: R) | Failure(error: E)
}
